=== FILE: README.md ===
# Clean-agent fire-suppression calculator: calculation and BOM engine

This project models the computational core of `fullbase.py`, a desktop tool
that sizes clean-agent fire-suppression systems and derives a bill of
materials (BOM) for them. The model covers:

- **Room volume.** Dimensions are in metres, or in feet when the room's units
  are `"imperial"`.
- **Agent flooding factor.** The factor for a design concentration is read from
  the agent's breakpoint table (`AGENT_TABLES`): clamped below the lowest key,
  clamped above the highest key, and linearly interpolated between the two keys
  around it.
- **Temperature correction.** 1.0 up to 20 °C, plus 1.3 % per degree above it.
- **Required agent mass per room** (`calculate_required_agent`). CO2 uses a
  direct table lookup with a 0.612 default. FM-200 and Novec 1230 use
  volume × factor × altitude correction × temperature correction.
- **The three OEM hardware selectors** (Viking, Kidde, Tyco Hygood).
  - Each picks a cylinder by mass band, and an actuator by actuation type,
    falling back to the electrical one.
  - `OEM_BOM_DATABASES` maps an OEM name to its selector. An unknown OEM falls
    back to Viking.
- **`aggregate_bom`.** It merges BOM lists by part number. Quantities are
  summed. The last description and unit seen win. Lines come out in the order
  in which part numbers were first seen.
- **The room registry (`AgentCalculator`).** Adding a room rejects duplicate
  names. Removing a room by name and clearing the registry are also modelled.
- **`generate_bom`.**
  - Every FM-200 room gets its vendor's parts. Every other room gets one "No
    BOM defined" line.
  - Only the FM-200 lists are merged into the project BOM.

Modules:

- `Wrappers`: the `Result` type that stands in for Python exceptions.
- `SortedKeys`: `sorted(table.keys())`.
- `Interpolation`: `get_agent_factor`.
- `AgentCalculation`: the agent tables, `Room`, volume, corrections and the
  required mass.
- `BomSelection`: the OEM selectors.
- `BomAggregation`: `aggregate_bom`.
- `RoomRegistry`: `AgentCalculator`.
- `BomGeneration`: `generate_bom`.
- `WorkedCases`: concrete rooms and concentrations with their expected figures.

Numbers are exact `real`s. Python exceptions become `Failure` values:

- `KeyError` on an unknown agent becomes `UnknownAgent`.
- `IndexError` on an empty factor table becomes `EmptyTable`.
- The final `KeyError` of `get_agent_factor` becomes `OutOfRange`.
- The duplicate-name `ValueError` becomes `DuplicateName`.
- The `TypeError` that `aggregate_bom` raises when it adds the blank quantity
  of a "no BOM" line becomes `NonNumericQty`.

The altitude correction is a parameter, `altitudeCorrection: real -> real`;
see "Left out" for the reason.

The model follows the code in these places:

- Any units string other than `"imperial"` is treated as metric; no unit
  error is raised.
- The merged BOM keeps first-seen order, which is dictionary insertion order.
- Unique room names are an invariant that `AddRoom` and `RemoveRoom` preserve, not something they require. `open_project` (fullbase.py:332) assigns the room list directly, so a loaded project may hold duplicate names, and both operations still behave as the code does on such a registry.
- An unknown agent in `generate_bom` stops the whole loop. The per-room
  entries built so far stay, and the project BOM keeps its old value. The
  other rooms are not processed.

## Model

| member | source | states |
|---|---|---|
| `SortedKeys.Sorted` | fullbase.py:145 | The result has the set's size and exactly its elements, and is strictly increasing. |
| `SortedKeys.Min` | fullbase.py:145 | The chosen element belongs to the set and is no larger than any element of it. |
| `SortedKeys.SortedIsUnique` | fullbase.py:145 | Any strictly increasing list holding exactly the table's keys is the list `Sorted` builds, so the key order is uniquely determined. |
| `Interpolation.Lerp` | fullbase.py:152 | The straight line through (x0, y0) and (x1, y1) evaluated at c. Its contract-free definition is characterised by `LerpAtEnds`, `LerpBetween` and `LerpAsFraction`. |
| `Interpolation.SegmentSearch` | fullbase.py:148-153 | The scan from segment i: the first segment holding c gives its interpolation, and running past the last segment is the out-of-range error. `SearchFinds` states when and where it stops. |
| `Interpolation.FactorOver` | fullbase.py:145-153 | The lookup given the ascending key list: the empty-table error, the two clamps, then the scan. `ClampLow`, `ClampHigh`, `Interior`, `AtKey` and `FactorDefined` state its results. |
| `Interpolation.AgentFactor` | fullbase.py:144-153 | The lookup over `sorted(keys)`. `GetAgentFactor` is proved equal to it, and `FactorViaKeys` relates it to any ascending key list. |
| `Interpolation.LerpAtEnds` | fullbase.py:150-152 | The interpolation formula gives y0 at x0 and y1 at x1. |
| `Interpolation.LerpBetween` | fullbase.py:150-152 | Between x0 and x1, the interpolated value lies between y0 and y1, in either direction of slope. |
| `Interpolation.GetAgentFactor` | fullbase.py:144-153 | The loop over consecutive key pairs returns exactly the reference factor `AgentFactor`: the clamps, the first bracketing segment, the error cases. |
| `Interpolation.SearchFinds` | fullbase.py:148-152 | When c lies between the current key and the highest key, the scan stops at the first segment that brackets c and returns its interpolation. |
| `Interpolation.SortedEnds` | fullbase.py:145-147 | The first and last sorted keys bound every key of the table. |
| `Interpolation.ClampLow` | fullbase.py:146 | At or below the lowest key, the factor is the lowest key's value. |
| `Interpolation.ClampHigh` | fullbase.py:147 | At or above the highest key, the factor is the highest key's value. |
| `Interpolation.FactorDefined` | fullbase.py:145-153 | A factor exists if and only if the table is non-empty. The only failure is the empty table, and the final out-of-range error is never reached. |
| `Interpolation.Interior` | fullbase.py:145-152 | Given the ascending key list, a concentration strictly between two keys is held by a first segment [keys[i], keys[i+1]]. The factor is that segment's interpolation and lies between its two end values. |
| `Interpolation.InteriorOver` | fullbase.py:148-152 | Over any ascending key list, a concentration strictly between two keys has a first bracketing segment, and the lookup returns that segment's interpolation. |
| `Interpolation.InteriorScan` | fullbase.py:145-148 | Strictly between two keys neither clamp applies, so the lookup is the scan from the first segment. |
| `Interpolation.LerpAsFraction` | fullbase.py:152 | The interpolated value is y0 plus the fraction (c - x0) / (x1 - x0) of the rise y1 - y0. |
| `Interpolation.AtKey` | fullbase.py:145-152 | At a concentration that is a key, the factor is the table's value for it. |
| `Interpolation.AtKeyOver` | fullbase.py:145-152 | Over any ascending key list, the lookup at a key returns that key's value, whether a clamp or the scan answers. |
| `Interpolation.AtKeyInside` | fullbase.py:148-152 | At an interior key, the segment the scan stops at ends or starts at that key, and its interpolation gives exactly the key's value. |
| `Interpolation.FactorViaKeys` | fullbase.py:145 | The factor computed over any ascending key list of the table equals the one computed over `sorted(keys)`. |
| `AgentCalculation.Volume` | fullbase.py:121-124 | Length × width × height, with each dimension converted from feet when the units are "imperial". `ImperialVolume`, `OtherUnitsAreMetric` and `VolumePositive` state its properties. |
| `AgentCalculation.Mass` | fullbase.py:141 | Volume × factor × altitude correction × temperature correction. `RequiredIsProduct` and `HalocarbonCalculation` state that the reported mass is this product. |
| `AgentCalculation.InMetres` | fullbase.py:122-123 | An imperial room converted to metres is a metric room. |
| `AgentCalculation.ImperialVolume` | fullbase.py:121-123 | An imperial room's volume is that of the room converted to metres, which is its plain product times one cubic foot in m³. |
| `AgentCalculation.OtherUnitsAreMetric` | fullbase.py:121-124 | Any units string other than "imperial" gives the plain product of the dimensions. |
| `AgentCalculation.VolumePositive` | fullbase.py:121-124 | Positive dimensions give a positive volume. |
| `AgentCalculation.TemperatureCorrection` | fullbase.py:37-38 | The correction is never below 1, and is exactly 1 at or below 20 °C. |
| `AgentCalculation.TemperatureCorrectionMonotone` | fullbase.py:37-38 | The correction never decreases as the temperature rises. |
| `AgentCalculation.KnownTableNonEmpty` | fullbase.py:19-23 | Every agent in the agent tables has a non-empty breakpoint table. |
| `AgentCalculation.CalculateRequiredAgent` | fullbase.py:130-142 | Fails exactly for an agent without a table, with that agent named. On success it reports the room's volume and a temperature correction of at least 1. |
| `AgentCalculation.Co2Calculation` | fullbase.py:133-136 | For CO2, the factor is the table value at the design concentration, or 0.612 when there is none. Required equals volume × factor, and both corrections are 1. |
| `AgentCalculation.Co2IgnoresEnvironment` | fullbase.py:133-136 | The CO2 result does not depend on altitude, temperature or the altitude-correction function. |
| `AgentCalculation.HalocarbonCalculation` | fullbase.py:137-141 | For FM-200 and Novec 1230: the factor is the interpolated factor, the corrections come from altitude and temperature, and required is their product with the volume. |
| `AgentCalculation.RequiredIsProduct` | fullbase.py:130-142 | For every known agent, required = volume × factor × altitude correction × temperature correction, over the reported values. |
| `BomSelection.BandIndex` | fullbase.py:41-45 | The index is that of the first band whose upper bound holds the mass: every earlier bound is below the mass. |
| `BomSelection.BandIndexIs` | fullbase.py:41-45 | Any index with the first-band property is the band index, so the band is unique. |
| `BomSelection.BandIndexMonotone` | fullbase.py:41-45 | A larger charge never selects a smaller band. |
| `BomSelection.ActuatorFor` | fullbase.py:49 | The actuator the dictionary lists for the actuation type, or its Electrical one, the `.get` with default of fullbase.py:49, 63 and 84. The selectors' contracts and the `*ActuatorLines` and `*ActuatorFallback` lemmas state what it gives for each vendor. |
| `BomSelection.BandAt` | fullbase.py:41-45 | Over ascending bounds, the band index is the index whose own bound holds the charge and whose preceding bound does not. |
| `BomSelection.EntryAt` | fullbase.py:41-45 | The table entry at that band index is the one selected. |
| `BomSelection.VikingCylinder` | fullbase.py:41-45 | The cylinder chosen by the chain of weight comparisons. `VikingCylinderBand` proves it is the first-band entry of the cylinder table. |
| `BomSelection.VikingBom` | fullbase.py:40-55 | Four one-piece lines, none of them the "-" line. The first is the cylinder `VikingCylinder` picks; the valve and nozzle part numbers are fixed. The third is the actuator that `VikingActuators`, the actuator dictionary, lists for the actuation type, or its Electrical actuator when the type is not listed. |
| `BomSelection.VikingCylinderBand` | fullbase.py:41-45 | The cylinder picked by the chain of comparisons is the table entry of the first of the bands 52/106/147/180 kg that holds the charge, else 910510. |
| `BomSelection.VikingActuatorFallback` | fullbase.py:46-49 | An unknown actuation type yields exactly the Electrical BOM. |
| `BomSelection.VikingActuatorLines` | fullbase.py:46-49 | Electrical, Pneumatic and Manual get actuators 07-235070-001, -002 and -003, with their descriptions. |
| `BomSelection.KiddeCylinder` | fullbase.py:57-59 | The cylinder part and description chosen by the chain of weight comparisons. `KiddeCylinderBand` proves it is the first-band entry of the cylinder table. |
| `BomSelection.KiddeBom` | fullbase.py:56-69 | Four one-piece lines, none of them the "-" line. The first carries the cylinder part and description `KiddeCylinder` picks; the valve and nozzle part numbers are fixed. The third is the actuator that `KiddeActuators` lists for the actuation type, or its Electrical actuator when the type is not listed. |
| `BomSelection.KiddeCylinderBand` | fullbase.py:57-59 | The cylinder part and description picked by the chain of comparisons are the table entry of the first of the bands 40/106 kg that holds the charge, else the 180 L cylinder. |
| `BomSelection.KiddeActuatorFallback` | fullbase.py:60-63 | An unknown actuation type yields exactly the Electrical BOM. |
| `BomSelection.KiddeActuatorLines` | fullbase.py:60-63 | Electrical, Pneumatic and Manual get actuators 06-236240-001, 06-236241-001 and 06-236242-001, with their descriptions. |
| `BomSelection.HygoodCylinder` | fullbase.py:71-78 | The cylinder part and description chosen by the chain of weight comparisons. `HygoodCylinderBand` proves it is the first-band entry of the cylinder table. |
| `BomSelection.HygoodBom` | fullbase.py:70-91 | Five one-piece lines, none of them the "-" line. The first carries the cylinder part and description `HygoodCylinder` picks; the valve, hose and nozzle part numbers are fixed. The third is the actuator that `HygoodActuators` lists for the actuation type, or its Electrical actuator when the type is not listed. |
| `BomSelection.HygoodCylinderBand` | fullbase.py:71-78 | The cylinder part and description picked by the chain of comparisons are the table entry of the first of the bands 8/16/32/52/106/147/180 kg that holds the charge, else the 343 L cylinder. |
| `BomSelection.HygoodActuatorFallback` | fullbase.py:79-84 | An unknown actuation type yields exactly the Electrical BOM. |
| `BomSelection.HygoodActuatorLines` | fullbase.py:79-84 | Electrical, Pneumatic and Manual get actuators 304.205.010, 304.209.004 and 304.209.002, with their descriptions. |
| `BomSelection.SelectVendor` | fullbase.py:92-94 | A listed OEM selects its own database. Any other OEM selects Viking, the fallback `generate_bom` applies at fullbase.py:362. |
| `BomSelection.VendorBom` | fullbase.py:362-363 | Every vendor's BOM is non-empty and made of one-piece lines, none of them the "-" line. |
| `BomAggregation.AddItem` | fullbase.py:99-102 | One visit of the inner loop: the item's entry, or the default one, takes the item's description and unit and adds its quantity. `AccumulateStep` and `AccumulateEntry` state what the visits build. |
| `BomAggregation.Accumulate` | fullbase.py:96-102 | The accumulator after all items are visited. `AccumulateKeys` and `AccumulateEntry` state its keys and entries. |
| `BomAggregation.FirstSeenOrder` | fullbase.py:96-104 | The part numbers in order of first appearance, which is the defaultdict's key order that `agg.items()` emits. `AccumulateKeys` states that these are exactly the accumulator's keys, each listed once. |
| `BomAggregation.Aggregate` | fullbase.py:103-104 | The accumulator emitted in first-seen key order. `AggregateProperties` states its lines. |
| `BomAggregation.AggregateOf` | fullbase.py:95-104 | The merged list, or the non-numeric error when a quantity is blank. `BlankFails` and `MergedAll` state the two outcomes, and `AggregateBom` is proved equal to it. |
| `BomAggregation.LastWith` | fullbase.py:100-102 | Returns an item of the list carrying the part number, at a position after which no item carries it: the last one. |
| `BomAggregation.Emit` | fullbase.py:103-104 | Emits one output line per accumulated part number, in order. |
| `BomAggregation.AccumulateKeys` | fullbase.py:96-102 | The accumulator's keys are exactly the listed part numbers. The first-seen order lists each of them once. |
| `BomAggregation.AccumulateEntry` | fullbase.py:96-102 | For each part number, the accumulator holds the summed quantity and the last description and unit seen, starting from the default entry. |
| `BomAggregation.QtySumConcat` | fullbase.py:101 | Quantities add across concatenated lists. |
| `BomAggregation.QtySumAbsent` | fullbase.py:101 | An absent part number sums to zero. |
| `BomAggregation.AggregateProperties` | fullbase.py:95-104 | The merged list has pairwise distinct part numbers and the same set of part numbers as the input. Each line carries the total quantity, and the last description and unit, of its part number. |
| `BomAggregation.AggregateBom` | fullbase.py:95-104 | The nested loop returns exactly `AggregateOf`: the merged list when all quantities are numeric, a failure otherwise. |
| `BomAggregation.BlankFails` | fullbase.py:97-101 | A blank quantity in any of the lists makes the merge fail with the non-numeric error. |
| `BomAggregation.MergedAll` | fullbase.py:95-104 | With numeric quantities only, the merge is the accumulator emitted in first-seen order of part numbers. |
| `BomAggregation.AccumulateNext` | fullbase.py:98-102 | Visiting the next item of the current list updates that item's part number entry, and appends the part number to the order only if it is new. |
| `BomAggregation.AccumulateStep` | fullbase.py:99-102 | One loop step updates exactly the entry of the item's part number, and appends that part number to the order only if it is new. |
| `BomAggregation.FlattenStep` | fullbase.py:97 | Visiting list b after lists 0..b-1 visits their concatenation. |
| `BomAggregation.InFlatten` | fullbase.py:97-98 | Every item of every list is visited. |
| `RoomRegistry.WithoutName` | fullbase.py:160 | Keeps exactly the rooms with other names, and never grows. |
| `RoomRegistry.HasRoomNamed` | fullbase.py:158 | Whether some stored room carries the name. `AddRoom` fails exactly when it holds, and `RemoveRoom` ensures it no longer holds. |
| `RoomRegistry.WithoutNameConcat` | fullbase.py:160 | Filtering distributes over concatenation, so order is kept. |
| `RoomRegistry.WithoutAbsentName` | fullbase.py:160 | Removing an absent name changes nothing. |
| `RoomRegistry.RemoveTwice` | fullbase.py:160 | Removing a name twice is the same as removing it once. |
| `RoomRegistry.WithoutNameKeepsUnique` | fullbase.py:160 | Removal preserves unique room names. |
| `RoomRegistry.AgentCalculator.constructor` | fullbase.py:156 | Starts with no rooms. |
| `RoomRegistry.AgentCalculator.AddRoom` | fullbase.py:157-159 | A duplicate name fails with the registry unchanged. Otherwise the room is appended. Unique names are preserved. |
| `RoomRegistry.AgentCalculator.RemoveRoom` | fullbase.py:160 | The registry becomes the rooms not carrying the name, in order. No room of that name remains, and uniqueness is preserved. |
| `RoomRegistry.AgentCalculator.Clear` | fullbase.py:161 | The registry becomes empty. |
| `BomGeneration.NoBomLine` | fullbase.py:366 | The line "-", "No BOM defined for <agent>.", with a blank quantity and unit. `RoomEntry` states that a room that is not FM-200 gets exactly this one line. |
| `BomGeneration.RequiredMass` | fullbase.py:359 | The first component of `calculate_required_agent` for a room whose agent has a table. `RoomMass` returns it, and `EntryOfRoom` builds each entry from it. |
| `BomGeneration.RoomEntry` | fullbase.py:360-366 | The entry carries the room's name and agent. An FM-200 room keeps its OEM name and gets the BOM of the selector that name picks (Viking for an unknown name) for its mass and actuation type: a non-empty list of one-piece lines, none of them the "-" line. Any other room gets no OEM and exactly one "-" line with a blank quantity. |
| `BomGeneration.Fm200Boms` | fullbase.py:367 | Selects at most one list per entry. Every FM-200 entry's list is selected, and every selected list is that of an FM-200 entry. |
| `BomGeneration.Fm200BomsConcat` | fullbase.py:367 | The selection keeps entry order: it distributes over concatenation of entry lists. |
| `BomGeneration.Fm200BomsOne` | fullbase.py:367 | A single entry contributes its list if it is an FM-200 entry and nothing otherwise. |
| `BomGeneration.Entries` | fullbase.py:357-366 | One entry per room. |
| `BomGeneration.EntryOfRoom` | fullbase.py:358-366 | Entry k is the entry of room k, built from that room's required mass: the entries follow the room order. |
| `BomGeneration.EntryOfEarlierRoom` | fullbase.py:358-366 | The same for every entry before the last one, through the rooms before the last. |
| `BomGeneration.EntryOfLastRoom` | fullbase.py:358-366 | The last entry is the one appended for the last room. |
| `BomGeneration.EntriesFromSelectors` | fullbase.py:360-364 | Every FM-200 entry holds only vendor-selector lines. |
| `BomGeneration.Fm200ItemsFromSelectors` | fullbase.py:367 | Only vendor-selector lines reach the merge. |
| `BomGeneration.ProjectBomWithoutSentinel` | fullbase.py:366-367 | The merged lists have only numeric quantities, so the merge cannot fail. The project BOM never contains the "-" line. |
| `BomGeneration.FlattenPair` | fullbase.py:97-98 | Merging two lists visits the first, then the second. |
| `BomGeneration.MergesTwoOrders` | fullbase.py:95-104 | Two lists that each order a part once merge into a single line ordering it twice. |
| `BomGeneration.VikingCylinderOnce` | fullbase.py:40-55 | A Viking BOM for at most 52 kg orders cylinder 889099 exactly once. |
| `BomGeneration.TwoSmallVikingRooms` | fullbase.py:95-104 | Two Viking BOMs for charges of at most 52 kg merge into one line with quantity 2 of cylinder 889099. |
| `BomGeneration.OneEntry` | fullbase.py:358-366 | A single room with a known agent gives exactly its own entry. |
| `BomGeneration.TwoEntries` | fullbase.py:358-366 | Two rooms with known agents give the first room's entry, then the second's. |
| `BomGeneration.TwoFm200` | fullbase.py:367 | Two FM-200 entries both reach the merge, in entry order. |
| `BomGeneration.TwoSmallVikingRoomsProject` | fullbase.py:356-367 | Two FM-200 rooms whose OEMs select Viking and whose required masses are at most 52 kg give a project BOM with one line of quantity 2 for cylinder 889099. The proof goes through the room entries, the FM-200 filter and the merge. |
| `BomGeneration.EntriesSnoc` | fullbase.py:358-365 | Processing one more room with a known agent appends its entry. |
| `BomGeneration.StopsAt` | fullbase.py:358-359 | A room without a table, after rooms that all have one, is where the loop stops, and not every room has a known agent. |
| `BomGeneration.RoomMass` | fullbase.py:359 | Fails exactly for an agent without a table, naming that agent. Otherwise it returns the required mass of `calculate_required_agent`. |
| `BomGeneration.BomReport.constructor` | fullbase.py:183-184 | Starts with no entries and no project BOM. |
| `BomGeneration.BomReport.CollectRoomBoms` | fullbase.py:357-365 | Succeeds if and only if every room's agent has a table, and then the per-room list is one entry per room, in order. On an unknown agent it fails with that agent's name and keeps the entries of the rooms before it. The project BOM is untouched. |
| `BomGeneration.BomReport.GenerateBom` | fullbase.py:356-367 | Succeeds if and only if every room's agent has a table. Then the per-room list is the room-by-room entries, and the project BOM is the merge of the FM-200 lists. On an unknown agent it fails with that agent's name: the entries are those of the rooms before it, and the project BOM is unchanged. |
| `WorkedCases.TenFootCube` | fullbase.py:121-123 | A 10 ft cube is 28.316846592 m³. |
| `WorkedCases.TemperatureCorrectionAt30` | fullbase.py:37-38 | At 30 °C the correction is 1.13. |
| `WorkedCases.Fm200Clamps` | fullbase.py:146-147 | FM-200 clamps to 0.47 below 6.25 % and to 1.00 above 10 %. |
| `WorkedCases.NovecKeysSorted` | fullbase.py:21 | The Novec 1230 keys in ascending order. |
| `WorkedCases.NovecScan` | fullbase.py:148-152 | At 5.25 %, the Novec 1230 scan interpolates to 0.495. |
| `WorkedCases.Novec525` | fullbase.py:144-152 | The Novec 1230 factor at 5.25 % is 0.495. |
| `WorkedCases.ServerRoom` | fullbase.py:130-142 | A 10 × 8 × 3 m FM-200 room at 7 %, 20 °C and sea level needs 139.2 kg, with factor 0.58. |
| `WorkedCases.SmallVikingRoom` | fullbase.py:130-142 | A 5 × 4 × 2.5 m FM-200 room at 7 %, at sea level and 20 °C, needs 50 m³ × 0.58 = 29 kg. |
| `WorkedCases.SmallVikingRoomQualifies` | fullbase.py:359-363 | Such a room on Viking hardware is an FM-200 room that selects Viking and needs 29 kg, so two of them meet the conditions of `TwoSmallVikingRoomsProject`. |

## Left out

- `altitude_correction` (fullbase.py:34-36) raises to the non-integer power 5.25588, which exact reals cannot express. `CalculateRequiredAgent` and `GenerateBom` take it as the parameter `altitudeCorrection`, a total function. Two failures of the Python function are therefore not modelled. At an altitude where `1 - 2.25577e-5 * altitude` is 0, it divides by zero (`ZeroDivisionError`). Above about 44,331 m the negative base raised to 5.25588 is a complex number, and `generate_bom` then raises `TypeError` when a selector compares the mass with a band bound (fullbase.py:41, 57, 71).
- AgentCalculation.CalculateRequiredAgent: "fails exactly for an agent without a table" holds for every total altitude-correction function. The two altitude failures above are not among its failures.
- BomGeneration.RoomMass: as for `CalculateRequiredAgent`, it fails only for an agent without a table, not for the altitude failures above.
- BomGeneration.BomReport.CollectRoomBoms: "succeeds if and only if every room's agent has a table" leaves out the altitude failures above.
- BomGeneration.BomReport.GenerateBom: "succeeds if and only if every room's agent has a table" leaves out the altitude failures above, and the `TypeError` of a complex mass in the selectors.
- IEEE double rounding, NaN and infinities are not modelled: arithmetic is exact. In particular, `OutOfRange` (the last `KeyError` of `get_agent_factor`) is unreachable in the model. In Python it can be reached only with NaN.
- Dimension and concentration values are reals. The Python code accepts any number, and the GUI's parsing and validation of entry fields are outside the model.
- `Room.to_dict`/`from_dict`, project save/load, CSV/PDF/Excel export, the report text of `calculate_agent` and its per-agent subtotals, `AGENT_DEFAULTS`, `REFERENCE_LINKS`, and the Tk GUI are presentation and I/O. They are not modelled.
- `RoomRegistry.AgentCalculator.Clear`: models `self.rooms.clear()` as assigning the empty list. Other holders of the same Python list object, which would also see it emptied, are not modelled.
- `generate_bom` reads `actuation_type` and `oem` with `getattr` defaults. Every modelled `Room` has both fields, so those defaults never apply.
- `display_bom_viewer` and the status-bar message after `generate_bom` are display only.

=== FILE: agent_calculation.dfy ===
/**
 * The calculation engine: room volume, the temperature correction and the
 * required agent mass of `Room.calculate_required_agent`.
 */
module AgentCalculation {
  import opened Wrappers
  import opened Interpolation

  const Fm200 := "FM-200 (HFC-227ea)"
  const Novec1230 := "Novec 1230 (FK-5-1-12)"
  const Co2 := "High Pressure CO2"

  const Fm200Table: AgentTable := map[6.25 := 0.47, 7.00 := 0.58, 8.00 := 0.70, 9.00 := 0.85, 10.00 := 1.00]
  const Novec1230Table: AgentTable :=
    map[4.5 := 0.41, 5.0 := 0.47, 5.5 := 0.52, 6.0 := 0.57, 6.5 := 0.62, 7.0 := 0.67]
  const Co2Table: AgentTable := map[34.0 := 0.612]

  /** Breakpoint tables of the three supported agents. */
  const AgentTables: map<string, AgentTable> := map[Fm200 := Fm200Table, Novec1230 := Novec1230Table, Co2 := Co2Table]

  /** Factor used for CO2 when the design concentration is not a key of its table. */
  const Co2DefaultFactor := 0.612

  /** One foot in metres. */
  const Foot := 0.3048

  /**
   * A protected enclosure. Dimensions are in feet when `units` is "imperial"
   * and in metres otherwise; `altitude` in metres, `temperature` in degrees C.
   */
  datatype Room = Room(
    name: string,
    length: real, width: real, height: real,
    designConcentration: real, altitude: real, temperature: real,
    units: string, agent: string, actuationType: string, oem: string)

  /** The result tuple `(required, factor, alt_corr, temp_corr, vol)`. */
  datatype Calculation = Calculation(
    required: real, factor: real, altitudeCorrection: real, temperatureCorrection: real, volume: real)

  datatype CalcError =
    | UnknownAgent(agent: string)      // `AGENT_TABLES[self.agent]` raises KeyError
    | NoFactor(cause: FactorError)     // an error raised by the factor lookup

  /** Volume in cubic metres. */
  function Volume(room: Room): real {
    if room.units == "imperial" then
      room.length * Foot * room.width * Foot * room.height * Foot
    else
      room.length * room.width * room.height
  }

  /** The same room measured in metres. */
  function InMetres(room: Room): (m: Room)
    requires room.units == "imperial"
    ensures m.units == "metric"
  {
    room.(units := "metric", length := room.length * Foot, width := room.width * Foot,
          height := room.height * Foot)
  }

  /** An imperial room has the volume of the same room with its dimensions converted to metres. */
  lemma ImperialVolume(room: Room)
    requires room.units == "imperial"
    ensures Volume(room) == Volume(InMetres(room))
    ensures Volume(room) == Volume(room.(units := "metric")) * (Foot * Foot * Foot)
  {
  }

  /** Every units string other than "imperial" is read as metres. */
  lemma OtherUnitsAreMetric(room: Room)
    requires room.units != "imperial"
    ensures Volume(room) == Volume(room.(units := "metric"))
  {
  }

  /** A room with positive dimensions has a positive volume, whatever its units. */
  lemma VolumePositive(room: Room)
    requires room.length > 0.0 && room.width > 0.0 && room.height > 0.0
    ensures Volume(room) > 0.0
  {
    var lw := room.length * room.width;
    assert lw > 0.0;
    assert lw * room.height > 0.0;
    if room.units == "imperial" {
      var f := Foot * Foot * Foot;
      assert Volume(room) == (lw * room.height) * f by { ImperialVolume(room); }
    }
  }

  /** Temperature correction: no penalty up to 20 C, 1.3 % per degree above. */
  function TemperatureCorrection(temperature: real): (c: real)
    ensures c >= 1.0
    ensures temperature <= 20.0 ==> c == 1.0
  {
    if temperature <= 20.0 then 1.0 else 1.0 + 0.013 * (temperature - 20.0)
  }

  lemma TemperatureCorrectionMonotone(t1: real, t2: real)
    requires t1 <= t2
    ensures TemperatureCorrection(t1) <= TemperatureCorrection(t2)
  {
  }

  lemma KnownTableNonEmpty(agent: string)
    requires agent in AgentTables
    ensures AgentTables[agent] != map[]
  {
    if agent == Fm200 {
      assert 6.25 in AgentTables[agent];
    } else if agent == Novec1230 {
      assert 4.5 in AgentTables[agent];
    } else {
      assert 34.0 in AgentTables[agent];
    }
  }

  /** Required mass from volume, factor and the two corrections. */
  function Mass(volume: real, factor: real, altitudeCorrection: real, temperatureCorrection: real): real {
    volume * factor * altitudeCorrection * temperatureCorrection
  }

  /**
   * `calculate_required_agent`. The altitude correction raises to a
   * non-integer power and is supplied by the caller as `altitudeCorrection`.
   */
  function CalculateRequiredAgent(room: Room, altitudeCorrection: real -> real): (r: Result<Calculation, CalcError>)
    ensures r.Failure? <==> room.agent !in AgentTables
    ensures r.Failure? ==> r.error == UnknownAgent(room.agent)
    ensures r.Success? ==> r.value.volume == Volume(room) && r.value.temperatureCorrection >= 1.0
  {
    var vol := Volume(room);
    if room.agent !in AgentTables then Failure(UnknownAgent(room.agent))
    else
      var table := AgentTables[room.agent];
      if room.agent == Co2 then
        var factor := if room.designConcentration in table then table[room.designConcentration]
                      else Co2DefaultFactor;
        Success(Calculation(vol * factor, factor, 1.0, 1.0, vol))
      else
        KnownTableNonEmpty(room.agent);
        FactorDefined(room.designConcentration, table);
        match AgentFactor(room.designConcentration, table)
        case Failure(e) => Failure(NoFactor(e))
        case Success(factor) =>
          var altCorr := altitudeCorrection(room.altitude);
          var tempCorr := TemperatureCorrection(room.temperature);
          Success(Calculation(Mass(vol, factor, altCorr, tempCorr), factor, altCorr, tempCorr, vol))
  }

  /**
   * CO2: exact-key factor with the 0.612 fallback, both corrections fixed
   * at 1.0, required mass volume times factor.
   */
  lemma Co2Calculation(room: Room, altitudeCorrection: real -> real)
    requires room.agent == Co2
    ensures var table := AgentTables[Co2];
      var f := if room.designConcentration in table then table[room.designConcentration] else 0.612;
      CalculateRequiredAgent(room, altitudeCorrection)
        == Success(Calculation(Volume(room) * f, f, 1.0, 1.0, Volume(room)))
  {
  }

  /** The CO2 result depends neither on altitude, nor on temperature, nor on the altitude model. */
  lemma Co2IgnoresEnvironment(room: Room, altitude: real, temperature: real, alt1: real -> real, alt2: real -> real)
    requires room.agent == Co2
    ensures CalculateRequiredAgent(room, alt1)
         == CalculateRequiredAgent(room.(altitude := altitude, temperature := temperature), alt2)
  {
    var moved := room.(altitude := altitude, temperature := temperature);
    assert Volume(moved) == Volume(room);
    Co2Calculation(room, alt1);
    Co2Calculation(moved, alt2);
  }

  /** Every other agent: interpolated factor times both environmental corrections. */
  lemma HalocarbonCalculation(room: Room, altitudeCorrection: real -> real)
    requires room.agent in AgentTables && room.agent != Co2
    ensures var table := AgentTables[room.agent];
      && AgentFactor(room.designConcentration, table).Success?
      && var f := AgentFactor(room.designConcentration, table).value;
         var v := Volume(room);
         var a := altitudeCorrection(room.altitude);
         var t := TemperatureCorrection(room.temperature);
         CalculateRequiredAgent(room, altitudeCorrection) == Success(Calculation(Mass(v, f, a, t), f, a, t, v))
  {
    var table := AgentTables[room.agent];
    KnownTableNonEmpty(room.agent);
    FactorDefined(room.designConcentration, table);
    var f := AgentFactor(room.designConcentration, table).value;
    var r := CalculateRequiredAgent(room, altitudeCorrection);
    assert r.Success?;
    assert r.value.factor == f;
    assert r.value.volume == Volume(room);
    assert r.value.altitudeCorrection == altitudeCorrection(room.altitude);
    assert r.value.temperatureCorrection == TemperatureCorrection(room.temperature);
  }

  /**
   * For every known agent the calculation succeeds and the required mass is
   * volume x factor x altitude correction x temperature correction (for CO2
   * both corrections are 1).
   */
  lemma RequiredIsProduct(room: Room, altitudeCorrection: real -> real)
    requires room.agent in AgentTables
    ensures var r := CalculateRequiredAgent(room, altitudeCorrection);
      && r.Success?
      && r.value.required == Mass(r.value.volume, r.value.factor,
                                  r.value.altitudeCorrection, r.value.temperatureCorrection)
  {
    if room.agent == Co2 {
      Co2Calculation(room, altitudeCorrection);
      var c := CalculateRequiredAgent(room, altitudeCorrection).value;
      assert Mass(c.volume, c.factor, 1.0, 1.0) == c.volume * c.factor;
    } else {
      HalocarbonCalculation(room, altitudeCorrection);
    }
  }
}

=== FILE: bom_aggregation.dfy ===
/**
 * `aggregate_bom`: merges the item lists of several rooms into one parts
 * list, one line per part number, in the order part numbers first appear.
 */
module BomAggregation {
  import opened Wrappers
  import opened BomSelection

  /** The accumulator of one part number; `Acc("", 0, "")` is the default entry. */
  datatype Acc = Acc(description: string, qty: int, unit: string)

  datatype AggregateError =
    | NonNumericQty   // adding a blank quantity to a number (a TypeError)

  /** The items of all lists, list by list. */
  function Flatten(boms: seq<seq<BomItem>>): seq<BomItem> {
    if |boms| == 0 then [] else Flatten(boms[..|boms| - 1]) + boms[|boms| - 1]
  }

  predicate AllCounted(items: seq<BomItem>) {
    forall item <- items :: item.qty.Count?
  }

  function PartNumbers(items: seq<BomItem>): set<string> {
    set item <- items :: item.partNumber
  }

  /** Sum of the quantities of the items carrying part number `p`. */
  function QtySum(items: seq<BomItem>, p: string): int
    requires AllCounted(items)
  {
    if |items| == 0 then 0
    else
      var last := items[|items| - 1];
      QtySum(items[..|items| - 1], p) + (if last.partNumber == p then last.qty.n else 0)
  }

  /** The last item carrying part number `p`. */
  function LastWith(items: seq<BomItem>, p: string): (item: BomItem)
    requires p in PartNumbers(items)
    ensures item in items && item.partNumber == p
    ensures exists k :: 0 <= k < |items| && items[k] == item && forall m :: k < m < |items| ==> items[m].partNumber != p
  {
    var last := items[|items| - 1];
    if last.partNumber == p then last
    else
      assert p in PartNumbers(items[..|items| - 1]) by {
        var it :| it in items && it.partNumber == p;
        assert it != last;
        var k :| 0 <= k < |items| && items[k] == it;
        assert items[..|items| - 1][k] == it;
      }
      LastWith(items[..|items| - 1], p)
  }

  /** Part numbers in order of first appearance: the key order of the accumulator. */
  function FirstSeenOrder(items: seq<BomItem>): seq<string> {
    if |items| == 0 then []
    else
      var earlier := FirstSeenOrder(items[..|items| - 1]);
      var p := items[|items| - 1].partNumber;
      if p in earlier then earlier else earlier + [p]
  }

  /** The accumulator after the program's loop has visited `items`. */
  function Accumulate(items: seq<BomItem>): map<string, Acc>
    requires AllCounted(items)
  {
    if |items| == 0 then map[]
    else AddItem(Accumulate(items[..|items| - 1]), items[|items| - 1])
  }

  /** One visit of the loop: the item's entry (or the default one) takes its description and unit and adds its quantity. */
  function AddItem(agg: map<string, Acc>, item: BomItem): map<string, Acc>
    requires item.qty.Count?
  {
    var acc := if item.partNumber in agg then agg[item.partNumber] else Acc("", 0, "");
    agg[item.partNumber := Acc(item.description, acc.qty + item.qty.n, item.unit)]
  }

  /** One output line per accumulator key, in key order. */
  function Emit(order: seq<string>, agg: map<string, Acc>): (out: seq<BomItem>)
    requires forall k <- order :: k in agg
    ensures |out| == |order|
  {
    seq(|order|, i requires 0 <= i < |order| =>
      BomItem(order[i], agg[order[i]].description, Count(agg[order[i]].qty), agg[order[i]].unit))
  }

  /** The merged parts list of `items`. */
  function Aggregate(items: seq<BomItem>): seq<BomItem>
    requires AllCounted(items)
  {
    AccumulateKeys(items);
    Emit(FirstSeenOrder(items), Accumulate(items))
  }

  /** What `aggregate_bom` returns for `bomLists`, or the error it raises. */
  function AggregateOf(bomLists: seq<seq<BomItem>>): Result<seq<BomItem>, AggregateError> {
    var items := Flatten(bomLists);
    if AllCounted(items) then Success(Aggregate(items)) else Failure(NonNumericQty)
  }

  /** The accumulator's keys are exactly the listed part numbers, each listed once. */
  lemma {:induction false} AccumulateKeys(items: seq<BomItem>)
    requires AllCounted(items)
    ensures forall k :: k in Accumulate(items) <==> k in FirstSeenOrder(items)
    ensures forall k :: k in FirstSeenOrder(items) <==> k in PartNumbers(items)
    ensures forall i, j :: 0 <= i < j < |FirstSeenOrder(items)| ==> FirstSeenOrder(items)[i] != FirstSeenOrder(items)[j]
  {
    if |items| > 0 {
      var init := items[..|items| - 1];
      AccumulateKeys(init);
      assert items == init + [items[|items| - 1]];
      assert PartNumbers(items) == PartNumbers(init) + {items[|items| - 1].partNumber};
    }
  }

  /** Each accumulator entry: summed quantity, description and unit of the last contributor. */
  lemma {:induction false} AccumulateEntry(items: seq<BomItem>, p: string)
    requires AllCounted(items) && p in PartNumbers(items)
    ensures p in Accumulate(items)
    ensures Accumulate(items)[p]
         == Acc(LastWith(items, p).description, QtySum(items, p), LastWith(items, p).unit)
  {
    var init := items[..|items| - 1];
    var last := items[|items| - 1];
    assert items == init + [last];
    AccumulateKeys(items);
    if p in PartNumbers(init) {
      AccumulateEntry(init, p);
      if last.partNumber != p {
        assert LastWith(items, p) == LastWith(init, p);
      }
    } else {
      AccumulateKeys(init);
      assert last.partNumber == p;
      assert QtySum(init, p) == 0 by { QtySumAbsent(init, p); }
    }
  }

  /** Quantities add up across concatenated lists. */
  lemma {:induction false} QtySumConcat(a: seq<BomItem>, b: seq<BomItem>, p: string)
    requires AllCounted(a) && AllCounted(b)
    ensures AllCounted(a + b)
    ensures QtySum(a + b, p) == QtySum(a, p) + QtySum(b, p)
    decreases |b|
  {
    if |b| > 0 {
      var ab := a + b;
      var n := |b| - 1;
      assert ab[..|ab| - 1] == a + b[..n];
      QtySumConcat(a, b[..n], p);
    } else {
      assert a + b == a;
    }
  }

  lemma {:induction false} QtySumAbsent(items: seq<BomItem>, p: string)
    requires AllCounted(items) && p !in PartNumbers(items)
    ensures QtySum(items, p) == 0
  {
    if |items| > 0 {
      var init := items[..|items| - 1];
      assert items == init + [items[|items| - 1]];
      QtySumAbsent(init, p);
    }
  }

  /**
   * The merged list has one line per distinct input part number, no part
   * number twice, quantities summed over all contributors, description and
   * unit from the last contributor.
   */
  lemma AggregateProperties(items: seq<BomItem>)
    requires AllCounted(items)
    ensures var out := Aggregate(items);
      && (forall i, j :: 0 <= i < j < |out| ==> out[i].partNumber != out[j].partNumber)
      && PartNumbers(out) == PartNumbers(items)
      && forall line <- out ::
           && line.partNumber in PartNumbers(items)
           && line.qty == Count(QtySum(items, line.partNumber))
           && line.description == LastWith(items, line.partNumber).description
           && line.unit == LastWith(items, line.partNumber).unit
  {
    var out := Aggregate(items);
    var order := FirstSeenOrder(items);
    AccumulateKeys(items);
    assert forall i :: 0 <= i < |out| ==> out[i].partNumber == order[i];
    forall line <- out
      ensures line.partNumber in PartNumbers(items)
      ensures line.qty == Count(QtySum(items, line.partNumber))
      ensures line.description == LastWith(items, line.partNumber).description
      ensures line.unit == LastWith(items, line.partNumber).unit
    {
      var i :| 0 <= i < |out| && out[i] == line;
      assert order[i] in order;
      AccumulateEntry(items, order[i]);
    }
    assert PartNumbers(out) == PartNumbers(items) by {
      forall p | p in PartNumbers(items) ensures p in PartNumbers(out) {
        var i :| 0 <= i < |order| && order[i] == p;
        assert out[i].partNumber == p;
      }
    }
  }

  /** `aggregate_bom` as the program runs it: two nested loops over a key -> accumulator map. */
  method AggregateBom(bomLists: seq<seq<BomItem>>) returns (r: Result<seq<BomItem>, AggregateError>)
    ensures r == AggregateOf(bomLists)
  {
    var agg: map<string, Acc> := map[];
    var order: seq<string> := [];
    for b := 0 to |bomLists|
      invariant AllCounted(Flatten(bomLists[..b]))
      invariant agg == Accumulate(Flatten(bomLists[..b]))
      invariant order == FirstSeenOrder(Flatten(bomLists[..b]))
    {
      var bom := bomLists[b];
      ghost var before := Flatten(bomLists[..b]);
      assert before + bom[..0] == before;
      for j := 0 to |bom|
        invariant AllCounted(before + bom[..j])
        invariant agg == Accumulate(before + bom[..j])
        invariant order == FirstSeenOrder(before + bom[..j])
      {
        var item := bom[j];
        var k := item.partNumber;
        if item.qty.Blank? {
          BlankFails(bomLists, b, j);
          return Failure(NonNumericQty);
        }
        AccumulateNext(before, bom, j);
        var acc := if k in agg then agg[k] else Acc("", 0, "");
        if k !in agg {
          order := order + [k];
        }
        AddItemUpdates(agg, item, acc);
        agg := agg[k := Acc(item.description, acc.qty + item.qty.n, item.unit)];
      }
      FlattenStep(bomLists, b);
    }
    assert bomLists[..|bomLists|] == bomLists;
    MergedAll(bomLists);
    r := Success(Emit(order, agg));
  }

  /** A blank quantity anywhere makes the merge fail. */
  lemma BlankFails(bomLists: seq<seq<BomItem>>, b: nat, j: nat)
    requires b < |bomLists| && j < |bomLists[b]| && bomLists[b][j].qty.Blank?
    ensures AggregateOf(bomLists) == Failure(NonNumericQty)
  {
    InFlatten(bomLists, b, j);
  }

  /** Once every list is visited with numeric quantities, the emitted list is the merge. */
  lemma MergedAll(bomLists: seq<seq<BomItem>>)
    requires AllCounted(Flatten(bomLists))
    ensures var items := Flatten(bomLists);
      && (forall k <- FirstSeenOrder(items) :: k in Accumulate(items))
      && AggregateOf(bomLists) == Success(Emit(FirstSeenOrder(items), Accumulate(items)))
  {
    AccumulateKeys(Flatten(bomLists));
  }

  /** The inner loop's step, stated on the prefixes it visits. */
  lemma AccumulateNext(before: seq<BomItem>, bom: seq<BomItem>, j: nat)
    requires j < |bom| && AllCounted(before + bom[..j]) && bom[j].qty.Count?
    ensures AllCounted(before + bom[..j + 1])
    ensures Accumulate(before + bom[..j + 1]) == AddItem(Accumulate(before + bom[..j]), bom[j])
    ensures var k := bom[j].partNumber;
      FirstSeenOrder(before + bom[..j + 1])
      == if k in Accumulate(before + bom[..j]) then FirstSeenOrder(before + bom[..j])
         else FirstSeenOrder(before + bom[..j]) + [k]
  {
    var done := before + bom[..j];
    assert before + bom[..j + 1] == done + [bom[j]];
    AccumulateStep(done, bom[j]);
  }

  /** `AddItem` as the loop writes it, with the looked-up entry `acc`. */
  lemma AddItemUpdates(agg: map<string, Acc>, item: BomItem, acc: Acc)
    requires item.qty.Count?
    requires acc == if item.partNumber in agg then agg[item.partNumber] else Acc("", 0, "")
    ensures AddItem(agg, item) == agg[item.partNumber := Acc(item.description, acc.qty + item.qty.n, item.unit)]
  {
  }

  /** One pass of the inner loop body. */
  lemma AccumulateStep(done: seq<BomItem>, item: BomItem)
    requires AllCounted(done) && item.qty.Count?
    ensures AllCounted(done + [item])
    ensures Accumulate(done + [item]) == AddItem(Accumulate(done), item)
    ensures FirstSeenOrder(done + [item])
         == if item.partNumber in Accumulate(done) then FirstSeenOrder(done) else FirstSeenOrder(done) + [item.partNumber]
  {
    var items := done + [item];
    assert items[..|items| - 1] == done;
    AccumulateKeys(done);
  }

  lemma FlattenStep(boms: seq<seq<BomItem>>, b: nat)
    requires b < |boms|
    ensures Flatten(boms[..b + 1]) == Flatten(boms[..b]) + boms[b][..|boms[b]|]
  {
    assert boms[..b + 1][..b] == boms[..b];
    assert boms[b][..|boms[b]|] == boms[b];
  }

  /** Every item of every list is an item of the flattened list. */
  lemma {:induction false} InFlatten(boms: seq<seq<BomItem>>, b: nat, j: nat)
    requires b < |boms| && j < |boms[b]|
    ensures boms[b][j] in Flatten(boms)
    decreases |boms|
  {
    var init := boms[..|boms| - 1];
    if b < |boms| - 1 {
      assert init[b] == boms[b];
      InFlatten(init, b, j);
    } else {
      assert boms[b][j] in boms[|boms| - 1];
    }
  }
}

=== FILE: bom_generation.dfy ===
/**
 * The per-room selection of `generate_bom`: FM-200 rooms get their vendor's
 * parts, every other room a single "no BOM" line, and only FM-200 lists are
 * merged into the project list.
 */
module BomGeneration {
  import opened Wrappers
  import opened AgentCalculation
  import opened BomSelection
  import opened BomAggregation

  /** One room's derived BOM. */
  datatype BomEntry = BomEntry(room: string, oem: string, bom: seq<BomItem>, agent: string)

  /** The line standing for "no BOM" of a room whose agent is not FM-200. */
  function NoBomLine(agent: string): BomItem {
    BomItem("-", "No BOM defined for " + agent + ".", Blank, "")
  }

  /** The entry appended for `room` once its required mass `agentKg` is known. */
  function RoomEntry(room: Room, agentKg: real): (e: BomEntry)
    ensures e.room == room.name && e.agent == room.agent
    ensures room.agent == Fm200 ==>
              e.oem == room.oem && e.bom == VendorBom(SelectVendor(room.oem), agentKg, room.actuationType)
    ensures room.agent == Fm200 ==>
              |e.bom| > 0 && forall item <- e.bom :: SelectorItem(item)
    ensures room.agent != Fm200 ==>
              e.oem == "" && e.bom == [NoBomLine(room.agent)]
    ensures room.agent != Fm200 ==>
              && |e.bom| == 1 && e.bom[0].partNumber == "-" && e.bom[0].qty == Blank
              && e.bom[0].description == "No BOM defined for " + room.agent + "." && e.bom[0].unit == ""
  {
    if room.agent == Fm200 then
      BomEntry(room.name, room.oem, VendorBom(SelectVendor(room.oem), agentKg, room.actuationType), room.agent)
    else
      BomEntry(room.name, "", [NoBomLine(room.agent)], room.agent)
  }

  /** The item lists of the FM-200 entries, in entry order. */
  function Fm200Boms(entries: seq<BomEntry>): (boms: seq<seq<BomItem>>)
    ensures |boms| <= |entries|
    ensures forall e <- entries :: e.agent == Fm200 ==> e.bom in boms
    ensures forall bom <- boms :: exists e <- entries :: e.agent == Fm200 && e.bom == bom
  {
    if |entries| == 0 then []
    else
      var last := entries[|entries| - 1];
      Fm200Boms(entries[..|entries| - 1]) + (if last.agent == Fm200 then [last.bom] else [])
  }

  /** The selection keeps entry order: selecting from two runs of entries is selecting from each, in turn. */
  lemma {:induction false} Fm200BomsConcat(a: seq<BomEntry>, b: seq<BomEntry>)
    ensures Fm200Boms(a + b) == Fm200Boms(a) + Fm200Boms(b)
    decreases |b|
  {
    if |b| == 0 {
      assert a + b == a;
    } else {
      var n := |b| - 1;
      assert (a + b)[..|a + b| - 1] == a + b[..n];
      Fm200BomsConcat(a, b[..n]);
    }
  }

  /** A single entry contributes its list exactly when it is an FM-200 entry. */
  lemma Fm200BomsOne(e: BomEntry)
    ensures Fm200Boms([e]) == if e.agent == Fm200 then [e.bom] else []
  {
    assert [e][..0] == [];
  }

  /** The required mass of a room whose agent has a table. */
  function RequiredMass(room: Room, altitudeCorrection: real -> real): real
    requires room.agent in AgentTables
  {
    CalculateRequiredAgent(room, altitudeCorrection).value.required
  }

  /** The required mass of `room`, or the error `calculate_required_agent` raises for it. */
  method RoomMass(room: Room, altitudeCorrection: real -> real) returns (r: Result<real, CalcError>)
    ensures r.Failure? <==> room.agent !in AgentTables
    ensures r.Failure? ==> r.error == UnknownAgent(room.agent)
    ensures r.Success? ==> r.value == RequiredMass(room, altitudeCorrection)
  {
    var calculation := CalculateRequiredAgent(room, altitudeCorrection);
    if calculation.Failure? {
      return Failure(calculation.error);
    }
    return Success(calculation.value.required);
  }

  /** The entries of rooms whose agents all have tables, one per room, in room order. */
  function Entries(rooms: seq<Room>, altitudeCorrection: real -> real): (entries: seq<BomEntry>)
    requires forall r <- rooms :: r.agent in AgentTables
    ensures |entries| == |rooms|
  {
    if |rooms| == 0 then []
    else
      var n := |rooms| - 1;
      Entries(rooms[..n], altitudeCorrection) + [RoomEntry(rooms[n], RequiredMass(rooms[n], altitudeCorrection))]
  }

  /** Entry k belongs to room k: the entries follow the room order. */
  lemma {:induction false} EntryOfRoom(rooms: seq<Room>, altitudeCorrection: real -> real, k: nat)
    requires forall r <- rooms :: r.agent in AgentTables
    requires k < |rooms|
    ensures Entries(rooms, altitudeCorrection)[k] == RoomEntry(rooms[k], RequiredMass(rooms[k], altitudeCorrection))
    decreases |rooms|, 1
  {
    if k + 1 < |rooms| {
      EntryOfEarlierRoom(rooms, altitudeCorrection, k);
    } else {
      EntryOfLastRoom(rooms, altitudeCorrection);
    }
  }

  /** The last entry is the entry of the last room. */
  lemma EntryOfLastRoom(rooms: seq<Room>, altitudeCorrection: real -> real)
    requires forall r <- rooms :: r.agent in AgentTables
    requires |rooms| > 0
    ensures var n := |rooms| - 1;
      Entries(rooms, altitudeCorrection)[n] == RoomEntry(rooms[n], RequiredMass(rooms[n], altitudeCorrection))
  {
    var n := |rooms| - 1;
    var last := [RoomEntry(rooms[n], RequiredMass(rooms[n], altitudeCorrection))];
    assert Entries(rooms, altitudeCorrection) == Entries(rooms[..n], altitudeCorrection) + last;
  }

  /** An entry before the last one is the entry of the same room among the rooms before the last. */
  lemma {:induction false} EntryOfEarlierRoom(rooms: seq<Room>, altitudeCorrection: real -> real, k: nat)
    requires forall r <- rooms :: r.agent in AgentTables
    requires k + 1 < |rooms|
    ensures Entries(rooms, altitudeCorrection)[k] == RoomEntry(rooms[k], RequiredMass(rooms[k], altitudeCorrection))
    decreases |rooms|, 0
  {
    var init := rooms[..|rooms| - 1];
    assert init[k] == rooms[k];
    EntryOfRoom(init, altitudeCorrection, k);
  }

  /** Every FM-200 entry carries selector items only. */
  ghost predicate Fm200EntriesFromSelectors(entries: seq<BomEntry>) {
    forall e <- entries :: e.agent == Fm200 ==> forall item <- e.bom :: SelectorItem(item)
  }

  lemma {:induction false} EntriesFromSelectors(rooms: seq<Room>, altitudeCorrection: real -> real)
    requires forall r <- rooms :: r.agent in AgentTables
    ensures Fm200EntriesFromSelectors(Entries(rooms, altitudeCorrection))
  {
    if |rooms| > 0 {
      var n := |rooms| - 1;
      EntriesFromSelectors(rooms[..n], altitudeCorrection);
      var e := RoomEntry(rooms[n], RequiredMass(rooms[n], altitudeCorrection));
      assert Entries(rooms, altitudeCorrection) == Entries(rooms[..n], altitudeCorrection) + [e];
    }
  }

  /** Only selector items reach the merge. */
  lemma {:induction false} Fm200ItemsFromSelectors(entries: seq<BomEntry>)
    requires Fm200EntriesFromSelectors(entries)
    ensures forall item <- Flatten(Fm200Boms(entries)) :: SelectorItem(item)
  {
    if |entries| > 0 {
      var n := |entries| - 1;
      var init := entries[..n];
      assert forall e <- init :: e in entries;
      Fm200ItemsFromSelectors(init);
      var boms := Fm200Boms(entries);
      if entries[n].agent == Fm200 {
        assert boms == Fm200Boms(init) + [entries[n].bom];
        assert boms[..|boms| - 1] == Fm200Boms(init);
        assert Flatten(boms) == Flatten(Fm200Boms(init)) + entries[n].bom;
      } else {
        assert boms == Fm200Boms(init);
      }
    }
  }

  /** The project list never holds the "no BOM" line, and every quantity in it is numeric. */
  lemma ProjectBomWithoutSentinel(rooms: seq<Room>, altitudeCorrection: real -> real)
    requires forall r <- rooms :: r.agent in AgentTables
    ensures var items := Flatten(Fm200Boms(Entries(rooms, altitudeCorrection)));
      && AllCounted(items)
      && "-" !in PartNumbers(Aggregate(items))
  {
    var items := Flatten(Fm200Boms(Entries(rooms, altitudeCorrection)));
    EntriesFromSelectors(rooms, altitudeCorrection);
    Fm200ItemsFromSelectors(Entries(rooms, altitudeCorrection));
    AggregateProperties(items);
  }

  lemma FlattenPair(a: seq<BomItem>, b: seq<BomItem>)
    ensures Flatten([a, b]) == a + b
  {
    var none: seq<seq<BomItem>> := [];
    assert [a][..0] == none;
    assert Flatten([a]) == a;
    assert [a, b][..1] == [a];
  }

  /** Two lists that each order part `p` once merge into one line ordering it twice. */
  lemma MergesTwoOrders(a: seq<BomItem>, b: seq<BomItem>, p: string)
    requires AllCounted(a) && AllCounted(b) && p in PartNumbers(a)
    requires QtySum(a, p) == 1 && QtySum(b, p) == 1
    ensures AllCounted(Flatten([a, b]))
    ensures exists line <- Aggregate(Flatten([a, b])) :: line.partNumber == p && line.qty == Count(2)
  {
    FlattenPair(a, b);
    var items := Flatten([a, b]);
    QtySumConcat(a, b, p);
    assert p in PartNumbers(items) by {
      var item :| item in a && item.partNumber == p;
      assert item in items;
    }
    AggregateProperties(items);
    var out := Aggregate(items);
    assert p in PartNumbers(out);
    var line :| line in out && line.partNumber == p;
  }

  /** Two Viking lists for charges of at most 52 kg merge into one line ordering 889099 twice. */
  lemma TwoSmallVikingRooms(kg1: real, kg2: real, act1: string, act2: string)
    requires kg1 <= 52.0 && kg2 <= 52.0
    ensures var items := Flatten([VikingBom(kg1, act1), VikingBom(kg2, act2)]);
      && AllCounted(items)
      && exists line <- Aggregate(items) :: line.partNumber == "889099" && line.qty == Count(2)
  {
    var a, b := VikingBom(kg1, act1), VikingBom(kg2, act2);
    VikingCylinderOnce(a, kg1, act1);
    VikingCylinderOnce(b, kg2, act2);
    assert a[0] in a;
    MergesTwoOrders(a, b, "889099");
  }

  /** The entries of two rooms with known agents: the first room's, then the second's. */
  lemma TwoEntries(r1: Room, r2: Room, altitudeCorrection: real -> real)
    requires r1.agent in AgentTables && r2.agent in AgentTables
    ensures forall r <- [r1, r2] :: r.agent in AgentTables
    ensures Entries([r1, r2], altitudeCorrection)
         == [RoomEntry(r1, RequiredMass(r1, altitudeCorrection)), RoomEntry(r2, RequiredMass(r2, altitudeCorrection))]
  {
    var rooms := [r1, r2];
    var first, second := RoomEntry(r1, RequiredMass(r1, altitudeCorrection)), RoomEntry(r2, RequiredMass(r2, altitudeCorrection));
    assert rooms[..1] == [r1];
    OneEntry(r1, altitudeCorrection);
    assert Entries(rooms, altitudeCorrection) == [first] + [second];
  }

  /** The entries of a single room with a known agent. */
  lemma OneEntry(r: Room, altitudeCorrection: real -> real)
    requires r.agent in AgentTables
    ensures Entries([r], altitudeCorrection) == [RoomEntry(r, RequiredMass(r, altitudeCorrection))]
  {
    assert [r][..0] == [];
  }

  /** Two FM-200 entries both reach the merge, in entry order. */
  lemma TwoFm200(e1: BomEntry, e2: BomEntry)
    requires e1.agent == Fm200 && e2.agent == Fm200
    ensures Fm200Boms([e1, e2]) == [e1.bom, e2.bom]
  {
    Fm200BomsConcat([e1], [e2]);
    Fm200BomsOne(e1);
    Fm200BomsOne(e2);
    assert [e1] + [e2] == [e1, e2];
  }

  /**
   * Two FM-200 rooms whose OEMs select Viking and whose charges are at most
   * 52 kg give a project list ordering cylinder 889099 twice.
   */
  lemma TwoSmallVikingRoomsProject(r1: Room, r2: Room, altitudeCorrection: real -> real)
    requires r1.agent == Fm200 && r2.agent == Fm200
    requires SelectVendor(r1.oem) == Viking && SelectVendor(r2.oem) == Viking
    requires RequiredMass(r1, altitudeCorrection) <= 52.0 && RequiredMass(r2, altitudeCorrection) <= 52.0
    ensures forall r <- [r1, r2] :: r.agent in AgentTables
    ensures var items := Flatten(Fm200Boms(Entries([r1, r2], altitudeCorrection)));
      && AllCounted(items)
      && exists line <- Aggregate(items) :: line.partNumber == "889099" && line.qty == Count(2)
  {
    var kg1, kg2 := RequiredMass(r1, altitudeCorrection), RequiredMass(r2, altitudeCorrection);
    TwoEntries(r1, r2, altitudeCorrection);
    var e1, e2 := RoomEntry(r1, kg1), RoomEntry(r2, kg2);
    TwoFm200(e1, e2);
    assert e1.bom == VikingBom(kg1, r1.actuationType);
    assert e2.bom == VikingBom(kg2, r2.actuationType);
    TwoSmallVikingRooms(kg1, kg2, r1.actuationType, r2.actuationType);
  }

  /** A small Viking order holds cylinder 889099 exactly once. */
  lemma VikingCylinderOnce(bom: seq<BomItem>, kg: real, act: string)
    requires kg <= 52.0 && bom == VikingBom(kg, act)
    ensures AllCounted(bom) && QtySum(bom, "889099") == 1 && bom[0].partNumber == "889099"
  {
    var p := "889099";
    assert bom == [bom[0]] + [bom[1]] + [bom[2]] + [bom[3]];
    QtySumConcat([bom[0]] + [bom[1]] + [bom[2]], [bom[3]], p);
    QtySumConcat([bom[0]] + [bom[1]], [bom[2]], p);
    QtySumConcat([bom[0]], [bom[1]], p);
    assert bom[2].partNumber != p;
  }

  /** The entries of the first i + 1 rooms extend those of the first i. */
  lemma EntriesSnoc(rooms: seq<Room>, i: nat, altitudeCorrection: real -> real)
    requires i < |rooms| && rooms[i].agent in AgentTables
    requires forall r <- rooms[..i] :: r.agent in AgentTables
    ensures forall r <- rooms[..i + 1] :: r.agent in AgentTables
    ensures Entries(rooms[..i + 1], altitudeCorrection)
         == Entries(rooms[..i], altitudeCorrection) + [RoomEntry(rooms[i], RequiredMass(rooms[i], altitudeCorrection))]
  {
    assert rooms[..i + 1] == rooms[..i] + [rooms[i]];
    assert rooms[..i + 1][..i] == rooms[..i];
  }

  /** A room without a table after rooms that all have one: the loop stops there. */
  lemma StopsAt(rooms: seq<Room>, i: nat, altitudeCorrection: real -> real, entries: seq<BomEntry>)
    requires i < |rooms| && rooms[i].agent !in AgentTables
    requires forall r <- rooms[..i] :: r.agent in AgentTables
    requires entries == Entries(rooms[..i], altitudeCorrection)
    ensures StoppedAt(rooms, i, altitudeCorrection, entries)
    ensures !forall r <- rooms :: r.agent in AgentTables
  {
    assert rooms[i] in rooms;
  }

  /**
   * The loop stopped at room n: every earlier room has a known agent and got
   * its entry, room n's agent has no table.
   */
  ghost predicate StoppedAt(rooms: seq<Room>, n: int, altitudeCorrection: real -> real, entries: seq<BomEntry>) {
    && 0 <= n < |rooms|
    && (forall r <- rooms[..n] :: r.agent in AgentTables)
    && rooms[n].agent !in AgentTables
    && entries == Entries(rooms[..n], altitudeCorrection)
  }

  /** The BOM state of the application window. */
  class BomReport {
    var bomPerRoom: seq<BomEntry>
    var projectBom: seq<BomItem>

    constructor ()
      ensures bomPerRoom == [] && projectBom == []
    {
      bomPerRoom := [];
      projectBom := [];
    }

    /**
     * `generate_bom`. The required mass is computed for every room; a room
     * with an agent that has no table raises, which stops the loop with the
     * entries built so far and leaves the project list as it was. Otherwise
     * the FM-200 lists are merged into the project list.
     */
    method GenerateBom(rooms: seq<Room>, altitudeCorrection: real -> real) returns (outcome: Result<(), CalcError>)
      modifies this
      ensures outcome.Success? <==> forall r <- rooms :: r.agent in AgentTables
      ensures outcome.Success? ==>
                && bomPerRoom == Entries(rooms, altitudeCorrection)
                && AggregateOf(Fm200Boms(bomPerRoom)) == Success(projectBom)
      ensures outcome.Failure? ==>
                && projectBom == old(projectBom)
                && exists n :: StoppedAt(rooms, n, altitudeCorrection, bomPerRoom) && outcome.error == UnknownAgent(rooms[n].agent)
    {
      outcome := CollectRoomBoms(rooms, altitudeCorrection);
      if outcome.Success? {
        ProjectBomWithoutSentinel(rooms, altitudeCorrection);
        var merged := AggregateBom(Fm200Boms(bomPerRoom));
        projectBom := merged.value;
      }
    }

    /** The loop of `generate_bom`: one entry per room, in room order, until a room's agent has no table. */
    method CollectRoomBoms(rooms: seq<Room>, altitudeCorrection: real -> real) returns (outcome: Result<(), CalcError>)
      modifies this
      ensures outcome.Success? <==> forall r <- rooms :: r.agent in AgentTables
      ensures outcome.Success? ==> bomPerRoom == Entries(rooms, altitudeCorrection)
      ensures outcome.Failure? ==>
                exists n :: StoppedAt(rooms, n, altitudeCorrection, bomPerRoom) && outcome.error == UnknownAgent(rooms[n].agent)
      ensures projectBom == old(projectBom)
    {
      bomPerRoom := [];
      for i := 0 to |rooms|
        invariant forall r <- rooms[..i] :: r.agent in AgentTables
        invariant bomPerRoom == Entries(rooms[..i], altitudeCorrection)
        invariant projectBom == old(projectBom)
      {
        var room := rooms[i];
        var result := RoomMass(room, altitudeCorrection);
        if result.Failure? {
          StopsAt(rooms, i, altitudeCorrection, bomPerRoom);
          outcome := Failure(result.error);
          return;
        }
        EntriesSnoc(rooms, i, altitudeCorrection);
        bomPerRoom := bomPerRoom + [RoomEntry(room, result.value)];
      }
      assert rooms[..|rooms|] == rooms;
      outcome := Success(());
    }
  }
}

=== FILE: bom_selection.dfy ===
/**
 * Per-vendor bill-of-materials selectors: `get_viking_bom`, `get_kidde_bom`,
 * `get_hygood_bom` and the vendor table `OEM_BOM_DATABASES`.
 */
module BomSelection {

  /** A quantity: a count, or the empty string the "no BOM" line carries. */
  datatype Qty = Count(n: int) | Blank

  datatype BomItem = BomItem(partNumber: string, description: string, qty: Qty, unit: string)

  /** The item shape every selector emits: one piece. */
  ghost predicate OnePiece(item: BomItem) {
    item.qty == Count(1) && item.unit == "pcs"
  }

  /** An item a vendor selector produces: one piece, never the "no BOM" line's part "-". */
  ghost predicate SelectorItem(item: BomItem) {
    OnePiece(item) && item.partNumber != "-"
  }

  /** Index of the first band whose upper bound holds `kg`, or |bounds| past the last band. */
  function BandIndex(bounds: seq<real>, kg: real): (i: nat)
    ensures i <= |bounds|
    ensures forall j :: 0 <= j < i ==> bounds[j] < kg
    ensures i < |bounds| ==> kg <= bounds[i]
  {
    if |bounds| == 0 then 0
    else if kg <= bounds[0] then 0
    else 1 + BandIndex(bounds[1..], kg)
  }

  /** The band index is the one index whose predecessors are all too small and which holds `kg`. */
  lemma BandIndexIs(bounds: seq<real>, kg: real, i: nat)
    requires i <= |bounds|
    requires forall j :: 0 <= j < i ==> bounds[j] < kg
    requires i < |bounds| ==> kg <= bounds[i]
    ensures BandIndex(bounds, kg) == i
  {
  }

  /** Band upper bounds in strictly ascending order, as every selector lists them. */
  ghost predicate Ascending(bounds: seq<real>) {
    forall j, k :: 0 <= j < k < |bounds| ==> bounds[j] < bounds[k]
  }

  /** Over ascending bounds it suffices to compare `kg` with the band's own bound and the one before. */
  lemma BandAt(bounds: seq<real>, kg: real, i: nat)
    requires Ascending(bounds) && i <= |bounds|
    requires 0 < i ==> bounds[i - 1] < kg
    requires i < |bounds| ==> kg <= bounds[i]
    ensures BandIndex(bounds, kg) == i
  {
    forall j | 0 <= j < i ensures bounds[j] < kg {
      if j < i - 1 {
        assert bounds[j] < bounds[i - 1];
      }
    }
    BandIndexIs(bounds, kg, i);
  }

  /** The table entry of the band `BandAt` identifies. */
  lemma EntryAt<T>(bounds: seq<real>, entries: seq<T>, kg: real, i: nat, e: T)
    requires Ascending(bounds) && i <= |bounds| && |entries| == |bounds| + 1
    requires 0 < i ==> bounds[i - 1] < kg
    requires i < |bounds| ==> kg <= bounds[i]
    requires entries[i] == e
    ensures BandIndex(bounds, kg) < |entries| && entries[BandIndex(bounds, kg)] == e
  {
    BandAt(bounds, kg, i);
  }

  /** A heavier charge never selects a smaller band. */
  lemma BandIndexMonotone(bounds: seq<real>, kg1: real, kg2: real)
    requires kg1 <= kg2
    ensures BandIndex(bounds, kg1) <= BandIndex(bounds, kg2)
  {
  }

  const KnownActuations := {"Electrical", "Pneumatic", "Manual"}

  /** `actuator_dict.get(actuation_type, actuator_dict["Electrical"])`. */
  function ActuatorFor(actuators: map<string, (string, string)>, actuationType: string): (string, string)
    requires "Electrical" in actuators
  {
    if actuationType in actuators then actuators[actuationType] else actuators["Electrical"]
  }

  // ---------------------------------------------------------------- Viking

  const VikingBounds: seq<real> := [52.0, 106.0, 147.0, 180.0]
  const VikingCylinders: seq<string> := ["889099", "889101", "889104", "910509", "910510"]

  /** Viking actuator (part number, description) per actuation type. */
  const VikingActuators: map<string, (string, string)> := map[
    "Electrical" := ("07-235070-001", "Electrically Operated Actuator"),
    "Pneumatic" := ("07-235070-002", "Pneumatic Actuator"),
    "Manual" := ("07-235070-003", "Manual Actuator")]

  /** The Viking cylinder part number for a charge of `agentKg`. */
  function VikingCylinder(agentKg: real): string {
    if agentKg <= 52.0 then "889099"
    else if agentKg <= 106.0 then "889101"
    else if agentKg <= 147.0 then "889104"
    else if agentKg <= 180.0 then "910509"
    else "910510"
  }

  function VikingBom(agentKg: real, actuationType: string): (bom: seq<BomItem>)
    ensures |bom| == 4 && forall item <- bom :: SelectorItem(item)
    ensures bom[0].partNumber == VikingCylinder(agentKg)
    ensures bom[1].partNumber == "07-235068-001" && bom[3].partNumber == "07-235098-001"
    ensures (bom[2].partNumber, bom[2].description)
         == if actuationType in VikingActuators then VikingActuators[actuationType] else VikingActuators["Electrical"]
  {
    var cylinder := VikingCylinder(agentKg);
    var actuator := ActuatorFor(VikingActuators, actuationType);
    [ BomItem(cylinder, "Viking FM-200 Cylinder", Count(1), "pcs"),
      BomItem("07-235068-001", "Cylinder Valve", Count(1), "pcs"),
      BomItem(actuator.0, actuator.1, Count(1), "pcs"),
      BomItem("07-235098-001", "Discharge Nozzle", Count(1), "pcs") ]
  }

  /** The Viking cylinder is the one of the first band that holds the charge. */
  lemma VikingCylinderBand(agentKg: real)
    ensures VikingCylinder(agentKg) == VikingCylinders[BandIndex(VikingBounds, agentKg)]
  {
    var b, cs, c := VikingBounds, VikingCylinders, VikingCylinder(agentKg);
    assert Ascending(b);
    if agentKg <= 52.0 { EntryAt(b, cs, agentKg, 0, c); }
    else if agentKg <= 106.0 { EntryAt(b, cs, agentKg, 1, c); }
    else if agentKg <= 147.0 { EntryAt(b, cs, agentKg, 2, c); }
    else if agentKg <= 180.0 { EntryAt(b, cs, agentKg, 3, c); }
    else { EntryAt(b, cs, agentKg, 4, c); }
  }

  /** An unknown actuation type gets the electrical actuator. */
  lemma VikingActuatorFallback(agentKg: real, actuationType: string)
    requires actuationType !in KnownActuations
    ensures VikingBom(agentKg, actuationType) == VikingBom(agentKg, "Electrical")
    ensures VikingBom(agentKg, actuationType)[2].partNumber == "07-235070-001"
  {
  }

  /** Each known actuation type gets its own Viking actuator, all three different. */
  lemma VikingActuatorLines(agentKg: real)
    ensures VikingBom(agentKg, "Electrical")[2] == BomItem("07-235070-001", "Electrically Operated Actuator", Count(1), "pcs")
    ensures VikingBom(agentKg, "Pneumatic")[2] == BomItem("07-235070-002", "Pneumatic Actuator", Count(1), "pcs")
    ensures VikingBom(agentKg, "Manual")[2] == BomItem("07-235070-003", "Manual Actuator", Count(1), "pcs")
  {
  }

  // ---------------------------------------------------------------- Kidde

  const KiddeBounds: seq<real> := [40.0, 106.0]
  const KiddeCylinders: seq<(string, string)> := [
    ("06-236204-001", "Kidde 40L FM-200 Cylinder"),
    ("06-236212-001", "Kidde 106L FM-200 Cylinder"),
    ("06-236214-001", "Kidde 180L FM-200 Cylinder")]

  /** Kidde actuator (part number, description) per actuation type. */
  const KiddeActuators: map<string, (string, string)> := map[
    "Electrical" := ("06-236240-001", "Electrically Operated Actuator"),
    "Pneumatic" := ("06-236241-001", "Pneumatic Actuator"),
    "Manual" := ("06-236242-001", "Manual Actuator")]

  /** The Kidde cylinder (part number, description) for a charge of `agentKg`. */
  function KiddeCylinder(agentKg: real): (string, string) {
    if agentKg <= 40.0 then ("06-236204-001", "Kidde 40L FM-200 Cylinder")
    else if agentKg <= 106.0 then ("06-236212-001", "Kidde 106L FM-200 Cylinder")
    else ("06-236214-001", "Kidde 180L FM-200 Cylinder")
  }

  function KiddeBom(agentKg: real, actuationType: string): (bom: seq<BomItem>)
    ensures |bom| == 4 && forall item <- bom :: SelectorItem(item)
    ensures (bom[0].partNumber, bom[0].description) == KiddeCylinder(agentKg)
    ensures bom[1].partNumber == "06-236230-001" && bom[3].partNumber == "06-236250-001"
    ensures (bom[2].partNumber, bom[2].description)
         == if actuationType in KiddeActuators then KiddeActuators[actuationType] else KiddeActuators["Electrical"]
  {
    var cylinder := KiddeCylinder(agentKg);
    var actuator := ActuatorFor(KiddeActuators, actuationType);
    [ BomItem(cylinder.0, cylinder.1, Count(1), "pcs"),
      BomItem("06-236230-001", "Kidde FM-200 Valve", Count(1), "pcs"),
      BomItem(actuator.0, actuator.1, Count(1), "pcs"),
      BomItem("06-236250-001", "Discharge Nozzle", Count(1), "pcs") ]
  }

  lemma KiddeCylinderBand(agentKg: real)
    ensures KiddeCylinder(agentKg) == KiddeCylinders[BandIndex(KiddeBounds, agentKg)]
  {
    var b, cs, c := KiddeBounds, KiddeCylinders, KiddeCylinder(agentKg);
    assert Ascending(b);
    if agentKg <= 40.0 { EntryAt(b, cs, agentKg, 0, c); }
    else if agentKg <= 106.0 { EntryAt(b, cs, agentKg, 1, c); }
    else { EntryAt(b, cs, agentKg, 2, c); }
  }

  lemma KiddeActuatorFallback(agentKg: real, actuationType: string)
    requires actuationType !in KnownActuations
    ensures KiddeBom(agentKg, actuationType) == KiddeBom(agentKg, "Electrical")
    ensures KiddeBom(agentKg, actuationType)[2].partNumber == "06-236240-001"
  {
  }

  /** Each known actuation type gets its own Kidde actuator. */
  lemma KiddeActuatorLines(agentKg: real)
    ensures KiddeBom(agentKg, "Electrical")[2] == BomItem("06-236240-001", "Electrically Operated Actuator", Count(1), "pcs")
    ensures KiddeBom(agentKg, "Pneumatic")[2] == BomItem("06-236241-001", "Pneumatic Actuator", Count(1), "pcs")
    ensures KiddeBom(agentKg, "Manual")[2] == BomItem("06-236242-001", "Manual Actuator", Count(1), "pcs")
  {
  }

  // ---------------------------------------------------------------- Tyco Hygood

  const HygoodBounds: seq<real> := [8.0, 16.0, 32.0, 52.0, 106.0, 147.0, 180.0]
  const HygoodCylinders: seq<(string, string)> := [
    ("303.205.015", "Hygood FM-200 8L Cylinder"),
    ("303.205.016", "Hygood FM-200 16L Cylinder"),
    ("303.205.017", "Hygood FM-200 32L Cylinder"),
    ("303.205.018", "Hygood FM-200 52L Cylinder"),
    ("303.205.019", "Hygood FM-200 106L Cylinder"),
    ("303.205.020", "Hygood FM-200 147L Cylinder"),
    ("303.205.021", "Hygood FM-200 180L Cylinder"),
    ("303.205.022", "Hygood FM-200 343L Cylinder")]

  /** Hygood actuator (part number, description) per actuation type. */
  const HygoodActuators: map<string, (string, string)> := map[
    "Electrical" := ("304.205.010", "Electrical Actuator (Suppression Diode)"),
    "Pneumatic" := ("304.209.004", "Pneumatic Actuator"),
    "Manual" := ("304.209.002", "Manual Actuator")]

  /** The Hygood cylinder (part number, description) for a charge of `agentKg`. */
  function HygoodCylinder(agentKg: real): (string, string) {
    if agentKg <= 8.0 then ("303.205.015", "Hygood FM-200 8L Cylinder")
    else if agentKg <= 16.0 then ("303.205.016", "Hygood FM-200 16L Cylinder")
    else if agentKg <= 32.0 then ("303.205.017", "Hygood FM-200 32L Cylinder")
    else if agentKg <= 52.0 then ("303.205.018", "Hygood FM-200 52L Cylinder")
    else if agentKg <= 106.0 then ("303.205.019", "Hygood FM-200 106L Cylinder")
    else if agentKg <= 147.0 then ("303.205.020", "Hygood FM-200 147L Cylinder")
    else if agentKg <= 180.0 then ("303.205.021", "Hygood FM-200 180L Cylinder")
    else ("303.205.022", "Hygood FM-200 343L Cylinder")
  }

  function HygoodBom(agentKg: real, actuationType: string): (bom: seq<BomItem>)
    ensures |bom| == 5 && forall item <- bom :: SelectorItem(item)
    ensures (bom[0].partNumber, bom[0].description) == HygoodCylinder(agentKg)
    ensures bom[1].partNumber == "302.209.002" && bom[3].partNumber == "306.207.003"
    ensures bom[4].partNumber == "306.205.005"
    ensures (bom[2].partNumber, bom[2].description)
         == if actuationType in HygoodActuators then HygoodActuators[actuationType] else HygoodActuators["Electrical"]
  {
    var (partNumber, desc) := HygoodCylinder(agentKg);
    var actuator := ActuatorFor(HygoodActuators, actuationType);
    [ BomItem(partNumber, desc, Count(1), "pcs"),
      BomItem("302.209.002", "Cylinder Valve (2\U{201D} for 8-180L)", Count(1), "pcs"),
      BomItem(actuator.0, actuator.1, Count(1), "pcs"),
      BomItem("306.207.003", "Flexible Discharge Hose (2\U{201D})", Count(1), "pcs"),
      BomItem("306.205.005", "Discharge Nozzle (typical)", Count(1), "pcs") ]
  }

  lemma HygoodCylinderBand(agentKg: real)
    ensures HygoodCylinder(agentKg) == HygoodCylinders[BandIndex(HygoodBounds, agentKg)]
  {
    var b, cs, c := HygoodBounds, HygoodCylinders, HygoodCylinder(agentKg);
    assert Ascending(b);
    if agentKg <= 8.0 { EntryAt(b, cs, agentKg, 0, c); }
    else if agentKg <= 16.0 { EntryAt(b, cs, agentKg, 1, c); }
    else if agentKg <= 32.0 { EntryAt(b, cs, agentKg, 2, c); }
    else if agentKg <= 52.0 { EntryAt(b, cs, agentKg, 3, c); }
    else if agentKg <= 106.0 { EntryAt(b, cs, agentKg, 4, c); }
    else if agentKg <= 147.0 { EntryAt(b, cs, agentKg, 5, c); }
    else if agentKg <= 180.0 { EntryAt(b, cs, agentKg, 6, c); }
    else { EntryAt(b, cs, agentKg, 7, c); }
  }

  lemma HygoodActuatorFallback(agentKg: real, actuationType: string)
    requires actuationType !in KnownActuations
    ensures HygoodBom(agentKg, actuationType) == HygoodBom(agentKg, "Electrical")
    ensures HygoodBom(agentKg, actuationType)[2].partNumber == "304.205.010"
  {
  }

  /** Each known actuation type gets its own Hygood actuator. */
  lemma HygoodActuatorLines(agentKg: real)
    ensures HygoodBom(agentKg, "Electrical")[2] == BomItem("304.205.010", "Electrical Actuator (Suppression Diode)", Count(1), "pcs")
    ensures HygoodBom(agentKg, "Pneumatic")[2] == BomItem("304.209.004", "Pneumatic Actuator", Count(1), "pcs")
    ensures HygoodBom(agentKg, "Manual")[2] == BomItem("304.209.002", "Manual Actuator", Count(1), "pcs")
  {
  }

  // ---------------------------------------------------------------- vendor table

  datatype Vendor = Viking | Kidde | Hygood

  const OemBomDatabases: map<string, Vendor> := map["Viking" := Viking, "Kidde" := Kidde, "Tyco Hygood" := Hygood]

  /** The selector registered for `oem`; an unregistered name gets Viking's. */
  function SelectVendor(oem: string): (v: Vendor)
    ensures oem in OemBomDatabases ==> v == OemBomDatabases[oem]
    ensures oem !in OemBomDatabases ==> v == Viking
  {
    if oem in OemBomDatabases then OemBomDatabases[oem] else OemBomDatabases["Viking"]
  }

  function VendorBom(vendor: Vendor, agentKg: real, actuationType: string): (bom: seq<BomItem>)
    ensures |bom| > 0 && forall item <- bom :: SelectorItem(item)
  {
    match vendor
    case Viking => VikingBom(agentKg, actuationType)
    case Kidde => KiddeBom(agentKg, actuationType)
    case Hygood => HygoodBom(agentKg, actuationType)
  }
}

=== FILE: interpolation.dfy ===
/**
 * Concentration-to-factor lookup: `Room.get_agent_factor`, which clamps a
 * design concentration to the ends of an agent's breakpoint table and
 * interpolates linearly in between.
 */
module Interpolation {
  import opened Wrappers
  import opened SortedKeys

  /** Design concentration (%) -> mass factor (kg of agent per m3). */
  type AgentTable = map<real, real>

  datatype FactorError =
    | EmptyTable   // `keys[0]` of an empty table (an IndexError)
    | OutOfRange   // no segment brackets the concentration (the final KeyError)

  /** `keys` lists the keys of `table` in ascending order. */
  ghost predicate SortedKeysOf(table: AgentTable, keys: seq<real>) {
    StrictlyIncreasing(keys) && forall x :: x in keys <==> x in table
  }

  /** The straight line through (x0, y0) and (x1, y1), evaluated at c. */
  function Lerp(x0: real, x1: real, y0: real, y1: real, c: real): real
    requires x0 < x1
  {
    y0 + (c - x0) * (y1 - y0) / (x1 - x0)
  }

  lemma LerpAtEnds(x0: real, x1: real, y0: real, y1: real)
    requires x0 < x1
    ensures Lerp(x0, x1, y0, y1, x0) == y0
    ensures Lerp(x0, x1, y0, y1, x1) == y1
  {
    assert (x1 - x0) * (y1 - y0) / (x1 - x0) == y1 - y0;
  }

  /** On a closed segment the interpolated value lies between the two end values. */
  lemma LerpBetween(x0: real, x1: real, y0: real, y1: real, c: real)
    requires x0 < x1 && x0 <= c <= x1
    ensures y0 <= y1 ==> y0 <= Lerp(x0, x1, y0, y1, c) <= y1
    ensures y1 <= y0 ==> y1 <= Lerp(x0, x1, y0, y1, c) <= y0
  {
    var t := (c - x0) / (x1 - x0);
    var rise := y1 - y0;
    UnitFraction(c - x0, x1 - x0);
    LerpAsFraction(x0, x1, y0, y1, c, t);
    assert Lerp(x0, x1, y0, y1, c) - y0 == t * rise;
    if y0 <= y1 {
      ScaleWithin(t, rise);
    } else {
      ScaleWithinNegative(t, rise);
    }
  }

  /** The interpolated value is y0 plus the fraction t of the rise. */
  lemma LerpAsFraction(x0: real, x1: real, y0: real, y1: real, c: real, t: real)
    requires x0 < x1 && t == (c - x0) / (x1 - x0)
    ensures Lerp(x0, x1, y0, y1, c) == y0 + t * (y1 - y0)
  {
    ScaledQuotient(c - x0, y1 - y0, x1 - x0, t);
  }

  lemma UnitFraction(a: real, d: real)
    requires 0.0 <= a <= d && 0.0 < d
    ensures 0.0 <= a / d <= 1.0
  {
    assert a / d * d == a;
  }

  lemma ScaledQuotient(a: real, b: real, d: real, t: real)
    requires d != 0.0 && t == a / d
    ensures a * b / d == t * b
  {
  }

  lemma ScaleWithinNegative(t: real, d: real)
    requires 0.0 <= t <= 1.0 && d <= 0.0
    ensures d <= t * d <= 0.0
  {
    var e := -d;
    ScaleWithin(t, e);
    assert t * e == -(t * d);
  }

  lemma ScaleWithin(t: real, d: real)
    requires 0.0 <= t <= 1.0 && 0.0 <= d
    ensures 0.0 <= t * d <= d
  {
    assert d - t * d == (1.0 - t) * d;
  }

  /**
   * The loop of `get_agent_factor` from index `i` on: the first segment
   * [keys[i], keys[i+1]] that contains `c` gives the interpolated factor.
   */
  function SegmentSearch(table: AgentTable, keys: seq<real>, c: real, i: nat): Result<real, FactorError>
    requires SortedKeysOf(table, keys)
    decreases |keys| - i
  {
    if i + 1 >= |keys| then Failure(OutOfRange)
    else if keys[i] <= c <= keys[i + 1] then
      Success(Lerp(keys[i], keys[i + 1], table[keys[i]], table[keys[i + 1]], c))
    else SegmentSearch(table, keys, c, i + 1)
  }

  /** The factor `get_agent_factor` returns, or the error it raises. */
  function AgentFactor(designConcentration: real, table: AgentTable): Result<real, FactorError> {
    FactorOver(table, Sorted(table.Keys), designConcentration)
  }

  /** The lookup, given the ascending key list of the table. */
  function FactorOver(table: AgentTable, keys: seq<real>, c: real): Result<real, FactorError>
    requires SortedKeysOf(table, keys)
  {
    if |keys| == 0 then Failure(EmptyTable)
    else if c <= keys[0] then Success(table[keys[0]])
    else if c >= keys[|keys| - 1] then Success(table[keys[|keys| - 1]])
    else SegmentSearch(table, keys, c, 0)
  }

  /** Any ascending list of the keys gives the lookup, as there is only one. */
  lemma FactorViaKeys(designConcentration: real, table: AgentTable, keys: seq<real>)
    requires SortedKeysOf(table, keys)
    ensures AgentFactor(designConcentration, table) == FactorOver(table, keys, designConcentration)
  {
    SortedIsUnique(table.Keys, keys);
  }

  /** The lookup as the program runs it: a scan over the sorted keys with early return. */
  method GetAgentFactor(designConcentration: real, table: AgentTable) returns (r: Result<real, FactorError>)
    ensures r == AgentFactor(designConcentration, table)
  {
    var keys := Sorted(table.Keys);
    if |keys| == 0 {
      return Failure(EmptyTable);
    }
    if designConcentration <= keys[0] {
      return Success(table[keys[0]]);
    }
    if designConcentration >= keys[|keys| - 1] {
      return Success(table[keys[|keys| - 1]]);
    }
    for i := 0 to |keys| - 1
      invariant SegmentSearch(table, keys, designConcentration, i) == AgentFactor(designConcentration, table)
    {
      if keys[i] <= designConcentration <= keys[i + 1] {
        var x0, x1 := keys[i], keys[i + 1];
        var y0, y1 := table[x0], table[x1];
        return Success(Lerp(x0, x1, y0, y1, designConcentration));
      }
    }
    return Failure(OutOfRange);
  }

  /** Between the first and the last key the scan always finds the first bracketing segment. */
  lemma {:induction false} SearchFinds(table: AgentTable, keys: seq<real>, c: real, i: nat) returns (j: nat)
    requires SortedKeysOf(table, keys)
    requires i + 1 < |keys| && keys[i] <= c <= keys[|keys| - 1]
    ensures i <= j && j + 1 < |keys| && keys[j] <= c <= keys[j + 1]
    ensures forall l :: i <= l < j ==> !(keys[l] <= c <= keys[l + 1])
    ensures SegmentSearch(table, keys, c, i)
         == Success(Lerp(keys[j], keys[j + 1], table[keys[j]], table[keys[j + 1]], c))
    decreases |keys| - i
  {
    if keys[i] <= c <= keys[i + 1] {
      j := i;
    } else {
      j := SearchFinds(table, keys, c, i + 1);
    }
  }

  /** The ends of the sorted key list are the smallest and the largest key. */
  lemma SortedEnds(table: AgentTable, keys: seq<real>)
    requires SortedKeysOf(table, keys) && |keys| > 0
    ensures forall k :: k in table ==> keys[0] <= k <= keys[|keys| - 1]
  {
    forall k | k in table ensures keys[0] <= k <= keys[|keys| - 1] {
      var j :| 0 <= j < |keys| && keys[j] == k;
    }
  }

  /** A concentration at or below the smallest key gets that key's factor. */
  lemma ClampLow(designConcentration: real, table: AgentTable, lowest: real)
    requires lowest in table && forall k :: k in table ==> lowest <= k
    requires designConcentration <= lowest
    ensures AgentFactor(designConcentration, table) == Success(table[lowest])
  {
    var keys := Sorted(table.Keys);
    assert lowest in keys;
    SortedEnds(table, keys);
  }

  /** A concentration at or above the largest key gets that key's factor. */
  lemma ClampHigh(designConcentration: real, table: AgentTable, highest: real)
    requires highest in table && forall k :: k in table ==> k <= highest
    requires designConcentration >= highest
    ensures AgentFactor(designConcentration, table) == Success(table[highest])
  {
    var keys := Sorted(table.Keys);
    assert highest in keys;
    SortedEnds(table, keys);
    assert keys[0] in keys && keys[|keys| - 1] in keys;
    if designConcentration <= keys[0] {
      assert keys[0] == highest;
    } else {
      assert keys[|keys| - 1] == highest;
    }
  }

  /**
   * The lookup fails only on an empty table (and then with the index error):
   * the closing KeyError of the scan is unreachable.
   */
  lemma FactorDefined(designConcentration: real, table: AgentTable)
    ensures AgentFactor(designConcentration, table).Success? <==> table != map[]
    ensures AgentFactor(designConcentration, table).Failure? ==>
              AgentFactor(designConcentration, table).error == EmptyTable
  {
    var keys := Sorted(table.Keys);
    assert AgentFactor(designConcentration, table) == FactorOver(table, keys, designConcentration);
    if table == map[] {
      assert table.Keys == {};
    } else {
      var k :| k in table;
      assert k in keys;
      if keys[0] < designConcentration < keys[|keys| - 1] {
        var j := SearchFinds(table, keys, designConcentration, 0);
      }
    }
  }

  /**
   * Strictly between the smallest and the largest key, the factor is the
   * interpolation over the first segment [keys[i], keys[i+1]] of the ascending
   * key list that holds the concentration, and it lies between the two end
   * factors.
   */
  lemma Interior(designConcentration: real, table: AgentTable) returns (i: nat)
    requires exists k :: k in table && k < designConcentration
    requires exists k :: k in table && designConcentration < k
    ensures FirstBracket(Sorted(table.Keys), designConcentration, i)
    ensures var keys := Sorted(table.Keys);
      var y0, y1 := table[keys[i]], table[keys[i + 1]];
      var f := AgentFactor(designConcentration, table);
      && f == Success(Lerp(keys[i], keys[i + 1], y0, y1, designConcentration))
      && (y0 <= y1 ==> y0 <= f.value <= y1)
      && (y1 <= y0 ==> y1 <= f.value <= y0)
  {
    var keys := Sorted(table.Keys);
    var lo, hi := Witnesses(designConcentration, table);
    i := InteriorOver(designConcentration, table, keys, lo, hi);
    LerpBetween(keys[i], keys[i + 1], table[keys[i]], table[keys[i + 1]], designConcentration);
  }

  lemma Witnesses(c: real, table: AgentTable) returns (lo: real, hi: real)
    requires exists k :: k in table && k < c
    requires exists k :: k in table && c < k
    ensures lo in table && hi in table && lo < c < hi
  {
    lo :| lo in table && lo < c;
    hi :| hi in table && c < hi;
  }

  lemma IndexOf(keys: seq<real>, x: real) returns (p: nat)
    requires x in keys
    ensures p < |keys| && keys[p] == x
  {
    p :| 0 <= p < |keys| && keys[p] == x;
  }

  /** Segment i is the first segment of `keys` that holds c. */
  ghost predicate FirstBracket(keys: seq<real>, c: real, i: nat) {
    && i + 1 < |keys|
    && keys[i] <= c <= keys[i + 1]
    && forall l :: 0 <= l < i ==> !(keys[l] <= c <= keys[l + 1])
  }

  /** `Interior` over a given ascending key list. */
  lemma InteriorOver(designConcentration: real, table: AgentTable, keys: seq<real>, lo: real, hi: real) returns (i: nat)
    requires SortedKeysOf(table, keys)
    requires lo in table && hi in table && lo < designConcentration < hi
    ensures FirstBracket(keys, designConcentration, i)
    ensures FactorOver(table, keys, designConcentration)
         == Success(Lerp(keys[i], keys[i + 1], table[keys[i]], table[keys[i + 1]], designConcentration))
  {
    InteriorScan(designConcentration, table, keys, lo, hi);
    i := SearchFinds(table, keys, designConcentration, 0);
  }

  /** Strictly inside the key range neither clamp applies and the scan starts at the first segment. */
  lemma InteriorScan(designConcentration: real, table: AgentTable, keys: seq<real>, lo: real, hi: real)
    requires SortedKeysOf(table, keys)
    requires lo in table && hi in table && lo < designConcentration < hi
    ensures 1 < |keys| && keys[0] < designConcentration < keys[|keys| - 1]
    ensures FactorOver(table, keys, designConcentration) == SegmentSearch(table, keys, designConcentration, 0)
  {
    assert lo in keys && hi in keys;
    SortedEnds(table, keys);
  }

  /** At a breakpoint the factor is exactly the tabulated one. */
  lemma AtKey(designConcentration: real, table: AgentTable)
    requires designConcentration in table
    ensures AgentFactor(designConcentration, table) == Success(table[designConcentration])
  {
    AtKeyOver(designConcentration, table, Sorted(table.Keys));
  }

  /** `AtKey` over a given ascending key list. */
  lemma AtKeyOver(c: real, table: AgentTable, keys: seq<real>)
    requires SortedKeysOf(table, keys) && c in table
    ensures FactorOver(table, keys, c) == Success(table[c])
  {
    assert c in keys;
    SortedEnds(table, keys);
    if c <= keys[0] {
      assert keys[0] == c;
    } else if c >= keys[|keys| - 1] {
      assert keys[|keys| - 1] == c;
    } else {
      AtKeyInside(c, table, keys);
    }
  }

  /** A key strictly inside the range ends the segment the scan stops at, or starts it. */
  lemma AtKeyInside(c: real, table: AgentTable, keys: seq<real>)
    requires SortedKeysOf(table, keys) && c in keys
    requires 0 < |keys| && keys[0] < c < keys[|keys| - 1]
    ensures SegmentSearch(table, keys, c, 0) == Success(table[c])
  {
    var p := IndexOf(keys, c);
    var j := SearchFinds(table, keys, c, 0);
    assert j == p - 1 || j == p;
    LerpAtEnds(keys[j], keys[j + 1], table[keys[j]], table[keys[j + 1]]);
  }
}

=== FILE: room_registry.dfy ===
/** `AgentCalculator`: the in-memory list of rooms, unique by name. */
module RoomRegistry {
  import opened Wrappers
  import opened AgentCalculation

  datatype RegistryError =
    | DuplicateName(name: string)   // "Room name must be unique." (a ValueError)

  ghost predicate UniqueNames(rooms: seq<Room>) {
    forall i, j :: 0 <= i < j < |rooms| ==> rooms[i].name != rooms[j].name
  }

  predicate HasRoomNamed(rooms: seq<Room>, name: string) {
    exists r <- rooms :: r.name == name
  }

  /** The rooms not named `name`, in their original order. */
  function WithoutName(rooms: seq<Room>, name: string): (kept: seq<Room>)
    ensures forall r :: r in kept <==> r in rooms && r.name != name
    ensures |kept| <= |rooms|
  {
    if |rooms| == 0 then []
    else (if rooms[0].name != name then [rooms[0]] else []) + WithoutName(rooms[1..], name)
  }

  /** Filtering distributes over concatenation: the kept rooms stay in their order. */
  lemma {:induction false} WithoutNameConcat(a: seq<Room>, b: seq<Room>, name: string)
    ensures WithoutName(a + b, name) == WithoutName(a, name) + WithoutName(b, name)
  {
    if |a| > 0 {
      var ab := a + b;
      assert ab[0] == a[0] && ab[1..] == a[1..] + b;
      WithoutNameConcat(a[1..], b, name);
      var head: seq<Room> := if a[0].name != name then [a[0]] else [];
      assert WithoutName(ab, name) == head + (WithoutName(a[1..], name) + WithoutName(b, name));
      assert WithoutName(a, name) == head + WithoutName(a[1..], name);
    } else {
      assert a + b == b;
    }
  }

  /** Removing a name nobody has changes nothing. */
  lemma {:induction false} WithoutAbsentName(rooms: seq<Room>, name: string)
    requires !HasRoomNamed(rooms, name)
    ensures WithoutName(rooms, name) == rooms
  {
    if |rooms| > 0 {
      assert rooms[0] in rooms;
      assert !HasRoomNamed(rooms[1..], name) by {
        forall r <- rooms[1..] ensures r.name != name { assert r in rooms; }
      }
      WithoutAbsentName(rooms[1..], name);
      assert rooms == [rooms[0]] + rooms[1..];
    }
  }

  /** A second removal of the same name is a no-op. */
  lemma RemoveTwice(rooms: seq<Room>, name: string)
    ensures WithoutName(WithoutName(rooms, name), name) == WithoutName(rooms, name)
  {
    WithoutAbsentName(WithoutName(rooms, name), name);
  }

  /** Filtering keeps names unique. */
  lemma {:induction false} WithoutNameKeepsUnique(rooms: seq<Room>, name: string)
    requires UniqueNames(rooms)
    ensures UniqueNames(WithoutName(rooms, name))
  {
    if |rooms| > 0 {
      var tail := rooms[1..];
      assert UniqueNames(tail) by {
        forall i, j | 0 <= i < j < |tail| ensures tail[i].name != tail[j].name {
          assert tail[i] == rooms[i + 1] && tail[j] == rooms[j + 1];
        }
      }
      WithoutNameKeepsUnique(tail, name);
      var rest := WithoutName(tail, name);
      forall r <- rest ensures r.name != rooms[0].name {
        assert r in tail;
        var k :| 0 <= k < |tail| && tail[k] == r;
        assert rooms[k + 1] == r;
      }
    }
  }

  class AgentCalculator {
    var rooms: seq<Room>

    /** No two stored rooms share a name. */
    ghost predicate Valid()
      reads this
    {
      UniqueNames(rooms)
    }

    constructor ()
      ensures rooms == [] && Valid()
    {
      rooms := [];
    }

    /** Appends `room` unless a stored room already has its name. */
    method AddRoom(room: Room) returns (r: Result<(), RegistryError>)
      modifies this
      ensures HasRoomNamed(old(rooms), room.name) ==>
                r == Failure(DuplicateName(room.name)) && rooms == old(rooms)
      ensures !HasRoomNamed(old(rooms), room.name) ==> r.Success? && rooms == old(rooms) + [room]
      ensures old(Valid()) ==> Valid()
    {
      if HasRoomNamed(rooms, room.name) {
        return Failure(DuplicateName(room.name));
      }
      rooms := rooms + [room];
      r := Success(());
    }

    /** Drops every room named `name`; the others keep their order. */
    method RemoveRoom(name: string)
      modifies this
      ensures rooms == WithoutName(old(rooms), name)
      ensures !HasRoomNamed(rooms, name)
      ensures old(Valid()) ==> Valid()
    {
      if Valid() {
        WithoutNameKeepsUnique(rooms, name);
      }
      rooms := WithoutName(rooms, name);
    }

    method Clear()
      modifies this
      ensures rooms == [] && Valid()
    {
      rooms := [];
    }
  }
}

=== FILE: sorted_keys.dfy ===
/**
 * The ascending list of the breakpoint keys of a table: the model of
 * `sorted(agent_table.keys())`.
 */
module SortedKeys {

  predicate StrictlyIncreasing(s: seq<real>) {
    forall i, j :: 0 <= i < j < |s| ==> s[i] < s[j]
  }

  lemma {:induction false} MinExists(s: set<real>) returns (m: real)
    requires s != {}
    ensures m in s && forall y :: y in s ==> m <= y
    decreases |s|
  {
    if forall x :: x !in s { assert false; }
    var x :| x in s;
    if s == {x} {
      m := x;
    } else {
      var m' := MinExists(s - {x});
      m := if x <= m' then x else m';
      forall y | y in s ensures m <= y {
        if y != x { assert y in s - {x}; }
      }
    }
  }

  lemma HasMin(s: set<real>)
    requires s != {}
    ensures exists m :: m in s && forall y :: y in s ==> m <= y
  {
    var m := MinExists(s);
  }

  /** The smallest element of a non-empty finite set of reals. */
  function Min(s: set<real>): (m: real)
    requires s != {}
    ensures m in s && forall y :: y in s ==> m <= y
  {
    HasMin(s);
    var m :| m in s && forall y :: y in s ==> m <= y;
    m
  }

  lemma ConsIncreasing(m: real, rest: seq<real>)
    requires StrictlyIncreasing(rest) && forall x :: x in rest ==> m < x
    ensures StrictlyIncreasing([m] + rest)
  {
    var r := [m] + rest;
    forall i, j | 0 <= i < j < |r| ensures r[i] < r[j] {
      assert r[j] == rest[j - 1] && rest[j - 1] in rest;
      if i > 0 { assert r[i] == rest[i - 1]; }
    }
  }

  /** The elements of `s` in ascending order. */
  function Sorted(s: set<real>): (r: seq<real>)
    ensures |r| == |s|
    ensures forall x :: x in r <==> x in s
    ensures StrictlyIncreasing(r)
    decreases |s|
  {
    if s == {} then []
    else
      var m := Min(s);
      var rest := Sorted(s - {m});
      ConsIncreasing(m, rest);
      [m] + rest
  }

  /** An ascending list holding exactly the elements of `s` is the one `Sorted` builds. */
  lemma {:induction false} SortedIsUnique(s: set<real>, ks: seq<real>)
    requires StrictlyIncreasing(ks)
    requires forall x :: x in ks <==> x in s
    ensures Sorted(s) == ks
    decreases |ks|, 1
  {
    if ks == [] {
      NoMembers(s);
    } else {
      SortedIsUniqueStep(s, ks);
    }
  }

  /** The non-empty case: the head is the minimum and the tail is the sorted rest. */
  lemma {:induction false} SortedIsUniqueStep(s: set<real>, ks: seq<real>)
    requires StrictlyIncreasing(ks) && |ks| > 0
    requires forall x :: x in ks <==> x in s
    ensures Sorted(s) == ks
    decreases |ks|, 0
  {
    HeadIsMin(s, ks);
    TailHoldsRest(s, ks);
    SortedIsUnique(s - {ks[0]}, ks[1..]);
    SortedUnfold(s);
    HeadTail(ks);
  }

  lemma SortedUnfold(s: set<real>)
    requires s != {}
    ensures Sorted(s) == [Min(s)] + Sorted(s - {Min(s)})
  {
  }

  lemma HeadTail(ks: seq<real>)
    requires |ks| > 0
    ensures ks == [ks[0]] + ks[1..]
  {
  }

  lemma NoMembers(s: set<real>)
    requires forall x :: x !in s
    ensures s == {}
  {
    if s != {} {
      var m := Min(s);
      assert false;
    }
  }

  lemma HeadIsMin(s: set<real>, ks: seq<real>)
    requires StrictlyIncreasing(ks) && |ks| > 0
    requires forall x :: x in ks <==> x in s
    ensures s != {} && Min(s) == ks[0]
  {
    assert ks[0] in ks;
    var m := Min(s);
    assert m in ks;
    var j :| 0 <= j < |ks| && ks[j] == m;
    assert j == 0;
  }

  lemma TailHoldsRest(s: set<real>, ks: seq<real>)
    requires StrictlyIncreasing(ks) && |ks| > 0
    requires forall x :: x in ks <==> x in s
    ensures StrictlyIncreasing(ks[1..])
    ensures forall x :: x in ks[1..] <==> x in s - {ks[0]}
  {
    var tail := ks[1..];
    forall x | x in tail ensures x in s - {ks[0]} {
      var j :| 0 <= j < |tail| && tail[j] == x;
      assert ks[j + 1] == x && ks[0] < ks[j + 1];
    }
    forall x | x in s - {ks[0]} ensures x in tail {
      var j :| 0 <= j < |ks| && ks[j] == x;
      assert tail[j - 1] == x;
    }
  }
}

=== FILE: worked_cases.dfy ===
/** Worked figures, proved on the model. */
module WorkedCases {
  import opened Wrappers
  import opened Interpolation
  import opened AgentCalculation
  import opened BomSelection
  import opened BomGeneration

  /** A 10 x 10 x 10 ft room holds 28.316846592 cubic metres. */
  lemma TenFootCube(room: Room)
    requires room.units == "imperial" && room.length == room.width == room.height == 10.0
    ensures Volume(room) == 28.316846592
  {
  }

  lemma TemperatureCorrectionAt30()
    ensures TemperatureCorrection(30.0) == 1.13
  {
  }

  /** FM-200 below its smallest breakpoint gets 0.47, above its largest 1.00. */
  lemma Fm200Clamps(low: real, high: real)
    requires low <= 6.25 && high >= 10.0
    ensures AgentFactor(low, Fm200Table) == Success(0.47)
    ensures AgentFactor(high, Fm200Table) == Success(1.00)
  {
    ClampLow(low, Fm200Table, 6.25);
    ClampHigh(high, Fm200Table, 10.0);
  }

  const NovecKeys: seq<real> := [4.5, 5.0, 5.5, 6.0, 6.5, 7.0]

  lemma NovecKeysSorted()
    ensures SortedKeysOf(Novec1230Table, NovecKeys)
  {
  }

  lemma NovecScan()
    ensures SortedKeysOf(Novec1230Table, NovecKeys)
    ensures FactorOver(Novec1230Table, NovecKeys, 5.25) == Success(0.495)
  {
    NovecKeysSorted();
    var table, keys := Novec1230Table, NovecKeys;
    assert SegmentSearch(table, keys, 5.25, 0) == SegmentSearch(table, keys, 5.25, 1);
    assert table[5.0] == 0.47 && table[5.5] == 0.52;
    assert Lerp(5.0, 5.5, 0.47, 0.52, 5.25) == 0.495;
  }

  /** Novec 1230 at 5.25 % lies halfway between 5.0 -> 0.47 and 5.5 -> 0.52. */
  lemma Novec525()
    ensures AgentFactor(5.25, Novec1230Table) == Success(0.495)
  {
    NovecKeysSorted();
    FactorViaKeys(5.25, Novec1230Table, NovecKeys);
    NovecScan();
  }

  /** 10 x 8 x 3 m, FM-200 at 7 %, sea level, 20 C: 240 m3 x 0.58 = 139.2 kg. */
  lemma ServerRoom(altitudeCorrection: real -> real)
    requires altitudeCorrection(0.0) == 1.0
    ensures CalculateRequiredAgent(
              Room("ServerRoom", 10.0, 8.0, 3.0, 7.0, 0.0, 20.0, "metric", Fm200, "Electrical", "Viking"),
              altitudeCorrection)
         == Success(Calculation(139.2, 0.58, 1.0, 1.0, 240.0))
  {
    var room := Room("ServerRoom", 10.0, 8.0, 3.0, 7.0, 0.0, 20.0, "metric", Fm200, "Electrical", "Viking");
    var table := Fm200Table;
    assert AgentTables[room.agent] == table;
    assert table[7.0] == 0.58;
    AtKey(7.0, table);
    assert Volume(room) == 240.0;
    assert TemperatureCorrection(20.0) == 1.0;
    assert Mass(240.0, 0.58, 1.0, 1.0) == 139.2;
    HalocarbonCalculation(room, altitudeCorrection);
  }

  /** 5 x 4 x 2.5 m, FM-200 at 7 %, sea level, 20 C: 50 m3 x 0.58 = 29 kg. */
  lemma SmallVikingRoom(name: string, actuationType: string, altitudeCorrection: real -> real)
    requires altitudeCorrection(0.0) == 1.0
    ensures CalculateRequiredAgent(
              Room(name, 5.0, 4.0, 2.5, 7.0, 0.0, 20.0, "metric", Fm200, actuationType, "Viking"),
              altitudeCorrection)
         == Success(Calculation(29.0, 0.58, 1.0, 1.0, 50.0))
  {
    var room := Room(name, 5.0, 4.0, 2.5, 7.0, 0.0, 20.0, "metric", Fm200, actuationType, "Viking");
    var table := Fm200Table;
    assert AgentTables[room.agent] == table;
    assert table[7.0] == 0.58;
    AtKey(7.0, table);
    assert Volume(room) == 50.0;
    assert TemperatureCorrection(20.0) == 1.0;
    assert Mass(50.0, 0.58, 1.0, 1.0) == 29.0;
    HalocarbonCalculation(room, altitudeCorrection);
  }

  /**
   * Such a room is an FM-200 room on Viking hardware needing at most 52 kg, so
   * any two of them order cylinder 889099 twice (`TwoSmallVikingRoomsProject`).
   */
  lemma SmallVikingRoomQualifies(name: string, actuationType: string, altitudeCorrection: real -> real)
    requires altitudeCorrection(0.0) == 1.0
    ensures var room := Room(name, 5.0, 4.0, 2.5, 7.0, 0.0, 20.0, "metric", Fm200, actuationType, "Viking");
      && room.agent == Fm200
      && SelectVendor(room.oem) == Viking
      && RequiredMass(room, altitudeCorrection) == 29.0
  {
    SmallVikingRoom(name, actuationType, altitudeCorrection);
  }
}

=== FILE: wrappers.dfy ===
/** Success/failure values standing in for the exceptions the engine raises. */
module Wrappers {

  datatype Result<+T, +E> = Success(value: T) | Failure(error: E)
}
